=== FILE: README.md ===
# explore-backend handlers in Dafny

A model of the Express request handlers of explore-backend, a video-sharing
API: likes, subscriptions, comments, videos, the channel dashboard, tweets,
and user registration. Every handler is a pure function from the database
and the request to a `Reply(res, db)`. Here `res` is `Ok(status, value)` or
`Err(status)`, and `db` is the database the handler leaves behind.

The database (`Records.Db`) holds one sequence per collection, in natural
(insertion) order. MongoDB operations become sequence functions:

- `find`/`$match` is `Seqs.Filter`;
- `countDocuments` is `Seqs.Count`;
- `findById` is `Seqs.FirstIndex`;
- `findByIdAndDelete`/`deleteOne` is `Seqs.RemoveAt`;
- `$skip`/`$limit` is `Seqs.Page`;
- `$sort` is `Sorting.SortBy`;
- `$lookup` followed by `$unwind` is `Records.JoinUsers`. It keeps a document
  only when its user reference resolves, and attaches that user's profile.

Request fields are `Option<string>`: `None` is `undefined`. JavaScript's
`!x`, `trim`, `toLowerCase` and `parseInt(x, 10)` are spelled out in
`JsText`. An exception that the handler does not catch is modelled as
`Err(500)`. This covers an `ObjectId` constructor on a malformed id, a
Mongoose cast error, and a `TypeError`. The media host (Cloudinary) is a
parameter `upload: string -> Option<Upload>`. Fresh ids and the clock are
parameters too.

Modules, leaves first:

- `Outcomes`: `Option`, `Res`.
- `JsText`: JavaScript string and number helpers, and `isValidObjectId`.
- `Seqs`: generic sequence operations and their lemmas.
- `Sorting`: the `$sort` order and an insertion sort.
- `Records`: documents, `Db`, joins.
- One module per controller: `Likes`, `Subscriptions`, `Comments`,
  `Videos`, `Dashboard`, `Tweets`, `Users`.

## Model

| member | source | states |
|---|---|---|
| Likes.ToggleLike | src/controllers/like.controller.js:7-62 | A missing or malformed id is a 400 that changes nothing. Otherwise, if a like with the key (user, target) exists, one such like is removed and "unliked" is reported: the key's count drops by one, the store by one record. If none exists, the one new like is appended and "liked" is reported. Likes with other keys and all other collections are unchanged. |
| Likes.NewLikeHoldsOnlyItsKey | src/controllers/like.controller.js:21 | The record a toggle creates matches its own (user, kind, id) key and no other. |
| Likes.ToggleTwiceFromUnliked | src/controllers/like.controller.js:15-23 | Toggling an absent like twice gives back exactly the original database. |
| Likes.ToggleTwiceFromLiked | src/controllers/like.controller.js:15-23 | With at most one like per key and toggle-shaped likes, toggling a present like twice gives back the same likes; the re-created one moves to the end. |
| Likes.TogglePreservesAtMostOne | src/controllers/like.controller.js:15-23 | A toggle keeps "at most one like per (user, target)". |
| Likes.TogglePreservesCanonical | src/controllers/like.controller.js:18-21 | A toggle keeps every like in the shape the toggles create: exactly one target field and no `video` field. |
| Likes.ToggleReportsNewState | src/controllers/like.controller.js:17-23 | Under the at-most-one invariant, the reported state equals the new presence: "liked" exactly when the like is now stored. |
| Likes.TogglesPreserveAtMostOne | src/controllers/like.controller.js:15-61 | Any sequence of video, comment and tweet toggles, by any users, keeps at most one like per key. |
| Likes.GetLikedVideos | src/controllers/like.controller.js:64-74 | A 400 exactly when the caller has no like carrying a `videoId`. Otherwise the list holds exactly those likes, in both directions of membership. |
| Likes.LikedVideoIsListed | src/controllers/like.controller.js:21-73 | After a toggle that likes a video, the caller's liked-videos list contains that like. |
| Subscriptions.ToggleSubscription | src/controllers/subscription.controller.js:8-36 | A malformed channel id, then a malformed user id, is a 400 with no change. Otherwise an existing (subscriber, channel) edge is removed and "unsubscribed" is reported, or one edge is appended and "subscribed" is reported. Other edges and collections are unchanged. |
| Subscriptions.ToggleMovesSubscriberCount | src/controllers/subscription.controller.js:18-34 | A toggle moves the channel's edge count by exactly −1 when it unsubscribes and +1 when it subscribes. |
| Subscriptions.ToggleTwiceRestoresCount | src/controllers/subscription.controller.js:18-34 | Without duplicate edges, two toggles of one pair restore every channel's subscriber count. |
| Subscriptions.ToggleKeepsOtherChannels | src/controllers/subscription.controller.js:18-34 | A toggle leaves every other channel's subscriber count unchanged. |
| Subscriptions.ToggleTwiceFromUnsubscribed | src/controllers/subscription.controller.js:18-34 | Toggling an absent edge twice gives back exactly the original database. |
| Subscriptions.ToggleTwiceFromSubscribed | src/controllers/subscription.controller.js:18-34 | Without duplicate edges, toggling a present edge twice gives back the same edges. |
| Subscriptions.TogglePreservesAtMostOne | src/controllers/subscription.controller.js:18-34 | A toggle keeps every (subscriber, channel) pair stored at most once. |
| Subscriptions.ToggleReportsNewState | src/controllers/subscription.controller.js:22-33 | Under the at-most-one invariant, "subscribed" is reported exactly when the edge is now stored. |
| Subscriptions.SelfSubscriptionAllowed | src/controllers/subscription.controller.js:8-34 | Nothing rejects subscriber = channel: a user's toggle on their own channel creates the self edge. |
| Subscriptions.GetUserChannelSubscribers | src/controllers/subscription.controller.js:38-72 | A 400 exactly for a malformed id. Otherwise the rows are the edges into the channel whose subscriber exists, in store order, each with that subscriber's profile. |
| Subscriptions.GetSubscribedChannels | src/controllers/subscription.controller.js:74-112 | A 400 exactly for a malformed id. Otherwise the rows are the subscriber's edges whose channel exists, in store order, each with that channel's profile. |
| Subscriptions.SubscribedChannelListed | src/controllers/subscription.controller.js:74-112 | For a well-formed subscriber id and a channel that is an existing user, the channel has a row in the subscriber's list exactly when the subscriber is subscribed to it; with `ToggleReportsNewState`, a toggle adds or removes that row. |
| Subscriptions.SubscribedListMatchesCount | src/controllers/subscription.controller.js:74-112 | When every channel the subscriber follows exists, the list has exactly as many rows as the subscriber has edges. |
| Subscriptions.SubscriberListMatchesCount | src/controllers/subscription.controller.js:45-69 | When every subscriber of the channel exists, the subscriber list has exactly as many rows as the channel has edges. |
| Comments.Thread | src/controllers/comment.controller.js:24-42 | The joined thread is the video's comments, in store order, whose author exists, each with the author's profile. |
| Comments.GetVideoComments | src/controllers/comment.controller.js:8-71 | In order: empty id → 400; `page`/`limit` NaN or below 1 → 400; malformed id → 500. A valid request is Ok exactly when its slice of the thread is non-empty, and a 404 otherwise. The slice starts at `(page-1)*limit` and is at most `limit` rows long, and the reply echoes the parsed page and limit. |
| Comments.GetVideoCommentsServesPage | src/controllers/comment.controller.js:15-44 | Asking for page p and limit l, both written in decimal, serves exactly `Page(thread, p, l)`, or a 404 past the end. |
| Comments.GetVideoCommentsDefaults | src/controllers/comment.controller.js:15-17 | Without `page` and `limit`, the reply is the first ten rows of the thread. |
| Comments.ThreadPagesDisjoint | src/controllers/comment.controller.js:43-44 | With unique comment ids, two different pages of one size share no row. |
| Comments.AddComment | src/controllers/comment.controller.js:75-108 | Absent or blank content → 400, then empty video id → 400; a malformed video id → 500; every error leaves the store alone. The reply is Ok exactly when the content is non-blank and the video id well formed. Then the new comment (fresh id, video, content, caller, and the time as both `createdAt` and `updatedAt`) is appended and returned with 201. |
| Comments.ThreadAfterAppend | src/controllers/comment.controller.js:89-95 | Appending a comment on the video by an existing user makes it the thread's new last row. |
| Comments.AddedCommentEndsThread | src/controllers/comment.controller.js:75-108 | A successful add by an existing user becomes the last row of the video's thread. |
| Comments.UpdateComment | src/controllers/comment.controller.js:110-139 | Empty id → 400; absent or blank content → 400; malformed id → 500; unknown id → 404; none of these changes the store. Ok exactly when all four checks pass. Then that comment's content is set and its `updatedAt` becomes `now`; its id, video, owner and creation time and every other comment are kept, and the updated comment is returned. |
| Comments.UpdateCommentIdempotent | src/controllers/comment.controller.js:122 | Repeating an update with the same content at a later time answers and leaves the store exactly as one update at that later time: the repeat changes nothing but `updatedAt`. |
| Comments.DeleteComment | src/controllers/comment.controller.js:141-165 | Empty id → 400; malformed id → 500; unknown id → 404; none of these changes the store. Ok (200) exactly when the id is well formed and found; then exactly the comment found is removed. |
| Comments.DeleteCommentRemovesIt | src/controllers/comment.controller.js:148-152 | With unique ids, a deleted comment is gone and a second delete is a 404. |
| Comments.AddThenDeleteComment | src/controllers/comment.controller.js:75-165 | Deleting a comment just added under a fresh id gives back the database from before the add. |
| Videos.ListVideos | src/controllers/video.controller.js:21-45 | The rows are sorted on `sortBy`, or on `createdAt` when it is absent, ascending only for the exact text "asc" in `sortType` and descending otherwise (video.controller.js:10-13). They are a permutation of the selected videos whose owner exists. Every row is selected and carries its owner's profile. |
| Videos.JoinSortedSelection | src/controllers/video.controller.js:34-45 | Joining the sorted selection keeps it sorted. It holds the same videos as the selection filtered on resolving owners. |
| Videos.GetAllVideos | src/controllers/video.controller.js:9-79 | A 500 exactly when `userId` is truthy and malformed, or the aggregation is refused: a sort key `$sort` does not accept, or a truthy `query` that does not compile as a pattern. Otherwise the listing, restricted to `userId`'s videos when one is given. |
| Videos.GetUserVideos | src/controllers/video.controller.js:81-152 | A malformed caller id → 400; a refused aggregation → 500; Ok exactly when neither. Then the reply is the listing restricted to the caller's own videos, sorted and joined as `Videos.ListVideos` states. |
| Videos.UserVideosAreOwnerListing | src/controllers/video.controller.js:99-111 | The caller's listing equals the general listing with the owner filter set to the caller. |
| Videos.BadSortKeyFailsListing | src/controllers/video.controller.js:12-13 | An empty `sortBy`, a `$`-prefixed one and `__proto__` (which leaves `sort` empty) make the listing a 500 whatever the rest of the request; the default key `createdAt` is accepted. |
| Videos.PublishAVideo | src/controllers/video.controller.js:154-189 | Falsy title or description → 400; no files → 400; a missing file field → 500; a falsy path or a failed upload → 400; none of these changes the store. Ok exactly when all of these pass. Then the appended video has the uploads' URLs and duration, 0 views, is published, is owned by the caller, has both times `now`, and is returned with 201. |
| Videos.GetVideoById | src/controllers/video.controller.js:191-239 | Malformed id → 400 with no change. An unknown id → 404 with no change. Otherwise that video's views go up by exactly one and its `updatedAt` becomes `now`, and the reply is the video with its owner's profile. It is a 404 when the owner does not exist, though the view is still counted. |
| Videos.ViewAddsOneView | src/controllers/video.controller.js:194-199 | A view raises the database's total views by exactly one for an existing video, and by zero otherwise. |
| Videos.UpdateVideo | src/controllers/video.controller.js:241-279 | Falsy title or description, malformed id, falsy thumbnail path, failed upload, unknown id: each is a 400 with no change. Otherwise the video's title, description and thumbnail are set, its `updatedAt` becomes `now`, and it is returned. |
| Videos.UpdateVideoKeepsRest | src/controllers/video.controller.js:260-268 | An update keeps the video's id, file, duration, views, publish state, owner and creation time, stamps `updatedAt` with `now`, and keeps every other video. |
| Videos.DeleteVideo | src/controllers/video.controller.js:281-295 | Malformed or unknown id → 400 with no change. Otherwise the video found is removed and returned. |
| Videos.DeleteVideoRemovesIt | src/controllers/video.controller.js:284-290 | With unique ids, a deleted video is gone: deleting it again is a 400, and viewing it is a 404. |
| Videos.TogglePublishStatus | src/controllers/video.controller.js:297-312 | Malformed or unknown id → 400 with no change. Otherwise `isPublished` of that video is negated, `save()` stamps its `updatedAt` with `now`, and nothing else changes. |
| Videos.TogglePublishTwice | src/controllers/video.controller.js:302-307 | Two publish toggles give back the original database, except that the video carries the second toggle's time as `updatedAt`; with a malformed or unknown id nothing changes at all. |
| Videos.LookupOwners | src/controllers/video.controller.js:325-332 | A `$lookup` without `$unwind` keeps one row per video, in order, with the owner's profile exactly when the owner exists. |
| Videos.GetTrendingVideos | src/controllers/video.controller.js:314-367 | A 500 exactly when `limit` is NaN or below 1. Otherwise the rows are published videos only, ordered by score from high to low, and number min(limit, published videos). Each row carries its owner's profile when the owner exists. |
| Videos.TrendingAreTopScores | src/controllers/video.controller.js:345-354 | The published videos split into the returned ones and the rest, and nothing in the rest scores above a returned video. |
| Dashboard.GetChannelStats | src/controllers/dashboard.controller.js:10-34 | `totalViews` equals the caller's views summed over the whole store (`OwnViews`, 0 when there are none). `totalVideos` is the number of the caller's videos. `totalSubscribers` is the number of edges into the caller's channel. `totalLikes` is the number of likes whose `video` field is the id of some stored video of the caller. |
| Dashboard.GetChannelVideos | src/controllers/dashboard.controller.js:37-48 | Exactly the caller's videos in store order: every listed video is stored and is the caller's, every stored video of the caller is listed, as many times as it is stored, the length is the number of the caller's videos, and the videos selected from any prefix of the store come first, in that order. |
| Dashboard.StatsMatchChannelVideos | src/controllers/dashboard.controller.js:14-21 | The statistics' video count and view total agree with the channel's video list. |
| Dashboard.FilteredViewsAreOwnViews | src/controllers/dashboard.controller.js:14-19 | The `reduce` over the found videos equals the caller's views summed over the whole store. |
| Dashboard.OwnIdsListed | src/controllers/dashboard.controller.js:20 | An id is among `videos.map(video => video._id)` exactly when it is the id of a stored video of the caller. |
| Dashboard.LikeCountsAgree | src/controllers/dashboard.controller.js:20 | The `$in` filter over the collected ids counts the same likes as the ownership predicate over the stored videos. |
| Dashboard.ViewMovesTotalViews | src/controllers/dashboard.controller.js:19 | Viewing one of the caller's videos raises the caller's `totalViews` by one; viewing anyone else's leaves it unchanged. |
| Dashboard.PublishAddsVideo | src/controllers/dashboard.controller.js:21 | Publishing a video raises the publisher's `totalVideos` by one. |
| Dashboard.SubscriptionMovesSubscriberTotal | src/controllers/dashboard.controller.js:24 | A subscription toggle on the caller's channel moves `totalSubscribers` by exactly ±1. |
| Dashboard.StatsMissToggledLikes | src/controllers/dashboard.controller.js:20 | In a database of toggle-made likes, `totalLikes` stays 0 even right after someone likes one of the caller's videos. |
| Dashboard.GetChannelStatsCorrected | src/controllers/dashboard.controller.js:20 | The same statistics, with `totalLikes` counting the likes whose `videoId` is the id of some stored video of the caller. |
| Dashboard.CorrectedStatsCountToggledLikes | src/controllers/dashboard.controller.js:20 | With the corrected count, a like toggle on one of the caller's videos moves `totalLikes` by exactly ±1. |
| Tweets.CreateTweet | src/controllers/tweet.controller.js:7-29 | A malformed caller id or falsy content → 400 with no change. Ok exactly when neither. Then the tweet (fresh id, content, caller, and the time as both `createdAt` and `updatedAt`) is appended and returned with 201. |
| Tweets.GetUserTweets | src/controllers/tweet.controller.js:31-62 | A 500 exactly for a malformed id. Otherwise the user's tweets whose owner exists, in store order, all owned by that user. |
| Tweets.UserTweetsAllOrNothing | src/controllers/tweet.controller.js:34-56 | For an existing user, the listing is all of the user's tweets; for a missing user, it is empty. |
| Tweets.UpdateTweet | src/controllers/tweet.controller.js:64-119 | Falsy content or a malformed id → 400; unknown id → 404; both with no change. Otherwise the content is written and `updatedAt` becomes `now`. The reply is the tweet joined to its owner, or a 500 when the owner does not exist, with the write kept. |
| Tweets.UpdateTweetKeepsRest | src/controllers/tweet.controller.js:77-81 | An update keeps every tweet's id, owner and creation time, every other tweet, and every other collection; a tweet it changes carries `now` as `updatedAt`. |
| Tweets.UpdateTweetIdempotent | src/controllers/tweet.controller.js:77-81 | Repeating an update with the same content at a later time answers and leaves the store exactly as one update at that later time: the repeat changes nothing but `updatedAt`. |
| Tweets.DeleteTweet | src/controllers/tweet.controller.js:121-136 | Malformed id → 400; unknown id → 500; both with no change. Ok (200) exactly when the id is well formed and found; then the tweet found is removed. |
| Tweets.DeleteTweetRemovesIt | src/controllers/tweet.controller.js:128-131 | With unique ids, a deleted tweet is gone, and deleting it again is the 500. |
| Tweets.CreateThenDeleteTweet | src/controllers/tweet.controller.js:7-136 | Deleting a tweet just created under a fresh id gives back the database from before. |
| Tweets.GetAllTweets | src/controllers/tweet.controller.js:138-176 | A 404 exactly when no tweet has an existing owner. Otherwise the rows are a permutation of the joined tweets, newest first. |
| Tweets.NewestFirst | src/controllers/tweet.controller.js:165 | Rows sorted descending on `createdAt` have non-increasing `createdAt`. |
| Tweets.FeedListsResolvedTweets | src/controllers/tweet.controller.js:140-151 | A tweet is in the feed exactly when it is stored and its owner exists. |
| Users.RegisterUser | src/controllers/user.controller.js:8-45 | A supplied field that trims to "" → 400; absent fields pass. A user with the username as sent or the same email → 409. No files → 400. A missing file field → 500. Then `Store`. |
| Users.Store | src/controllers/user.controller.js:23-44 | Falsy avatar path or failed avatar upload → 400; absent username → 500. Otherwise the appended user has the lowered username, the given email, name and password, the avatar URL, the cover URL or "", and no refresh token (user.controller.js:32-39). The answer is that user without password or refresh token, with 201 (user.controller.js:40). |
| Users.RegisteredUserShape | src/controllers/user.controller.js:32-40 | After a registration, the stored username is the sent one lowered and has no upper-case letter; the stored password is the sent one; the refresh token is absent; and the answer is the stored user's public part. |
| Users.RegisterTwiceConflicts | src/controllers/user.controller.js:15-20 | Sending the same registration again is a 409. |
| Users.CaseVariantSharesUsername | src/controllers/user.controller.js:15-33 | The uniqueness test compares the username as sent, so a name differing from a stored one only in letter case passes it, and two users then share a username. |
| Users.MissingCoverFailsAsWritten | src/controllers/user.controller.js:22 | A registration with an avatar but no cover image field fails with a 500, as written. |
| Users.RegisterUserCorrected | src/controllers/user.controller.js:21-22 | Registration with optional file lookups: it agrees with `RegisterUser` whenever both file fields are sent, and a missing avatar field is a 400. |
| Users.MissingCoverAcceptedCorrected | src/controllers/user.controller.js:36 | With the corrected lookup, the same registration succeeds and stores the user with cover image "". |
| Records.JoinUsers | src/controllers/comment.controller.js:26-42 | `$lookup` + `$unwind`: the rows' documents are exactly the input documents whose user reference resolves, in order, each with that user's profile. |
| Seqs.Toggle | src/controllers/like.controller.js:15-23 | Find-then-delete-or-create: either the first match is removed (and there was one) or the new record is appended (and there was none). |
| Seqs.Page | src/controllers/comment.controller.js:43-44 | `$skip: (page-1)*limit` then `$limit: limit`: the page is the run of at most `limit` elements starting there. |
| Seqs.PagesArePrefix | src/controllers/comment.controller.js:43-44 | Pages 1..k of one size, concatenated, are the first k·limit elements. |
| Seqs.PagesDisjoint | src/controllers/comment.controller.js:43-44 | In a sequence without duplicates, two different pages of one size share no element. |
| Sorting.SortBy | src/controllers/video.controller.js:36 | `$sort`: the result is ordered on the key in the given direction and is a permutation of the input. |
| JsText.MissingOrBlankMeaning | src/controllers/comment.controller.js:80 | `!content \|\| content.trim() === ""` holds exactly for an absent field and an all-white-space string. |
| JsText.ToLowerProperties | src/controllers/user.controller.js:33 | A lowered string has no upper-case letter, lowering is idempotent, and case variants lower to the same string. |
| JsText.ParseIntOfDecimal | src/controllers/comment.controller.js:16-17 | `parseInt(String(n) + rest, 10)` is n for every integer n, when `rest` does not start with a digit. |
| JsText.ParseIntSkipsLeadingSpace | src/controllers/comment.controller.js:16-17 | Leading white space does not change what `parseInt` reads. |
| JsText.QueryIntOfDecimal | src/controllers/comment.controller.js:15-17 | A query parameter written as the decimal numeral of n reads back as n. |

## Left out

- Cloudinary and multer are not modelled. Uploads are the oracle `upload`; multipart fields are `Videos.VideoFiles` and `Users.UserFiles`.
- Regular-expression search in the video listings is the abstract predicate `matches(pattern, text)`.
- Videos.GetAllVideos: the `page` and `limit` options and the `aggregatePaginate` result envelope are library code that is not visible here. The listing is returned whole, and a failure inside the paging plugin (a NaN or out-of-range `page` or `limit`, say) is not modelled.
- Videos.GetAllVideos: whether the server compiles a `$regex` pattern is the oracle `compiles`. `SortKeyAccepted` is MongoDB's field-path rule as the model takes it: not empty, with no empty component and no component starting with `$`; and not `__proto__`, which JavaScript does not store as a key, leaving an empty `$sort`. Other server-side failures are not modelled.
- Videos.GetUserVideos: the same paging, envelope and pattern oracle as `Videos.GetAllVideos`.
- Videos.PublishAVideo: the media host reports a duration in fractional seconds; `Upload.duration` is an integer, so the stored duration and a sort on `duration` see it truncated. Floating-point durations are not modelled.
- Videos.GetTrendingVideos: the score `views + createdAt * 0.001` is computed exactly, as `views * 1000 + createdAt`. Floating-point rounding, which can merge close scores, is not modelled.
- The video schema (`src/models/video.model.js`) is not part of this model. The model takes it to enable Mongoose timestamps: creation sets `createdAt` and `updatedAt`, and `findByIdAndUpdate` and `save()` stamp `updatedAt` with the request time `now`. Without timestamps both times would be absent, and `TogglePublishTwice` would give back the database exactly.
- The comment and tweet schemas (`src/models/comment.model.js`, `src/models/tweet.model.js`) are not part of this model. The model takes them to enable timestamps as well: `create` sets `createdAt` and `updatedAt` to `now`, and `findByIdAndUpdate` stamps `updatedAt` with `now`. Without timestamps `Comments.UpdateCommentIdempotent` and `Tweets.UpdateTweetIdempotent` would hold with the second reply equal to the first.
- Concurrency is not modelled. Each request runs alone and atomically, so the race between a toggle's find and its delete or create is not represented.
- Session tokens, refresh-token rotation, logout and password change are not modelled, because no authentication code is in the modelled files. The caller's id is a parameter.
- The like leaderboard, `isVideoLiked` and the like count are not modelled. `src/routes/like.routes.js` imports them, but the like controller does not define them.
- `src/controllers/playlist.controller.js` (stubs and plain CRUD), `src/controllers/healthcheck.controller.js`, `src/index.js` and the routes are not part of this model.
- The `_id` of like and subscription records is not modelled: a record is its key.
- Response envelopes and JSON projections are not modelled. Every join attaches the same `Profile` (id, username, email, avatar), though some pipelines project fewer fields. `getChannelStats` (dashboard.controller.js:33) and `getChannelVideos` (dashboard.controller.js:47) pass their data as `ApiResponse`'s first argument, where the status code is expected; only the status and the values are modelled.
- The error-handling middleware is not part of this model. An uncaught exception and an `ApiError` thrown with its status are both taken to answer with that status; an uncaught exception answers 500.
- JsText.ToLower: lowers the ASCII letters only, not all of Unicode.
- JsText.ParseInt: reads numbers of any size exactly. JavaScript loses precision beyond 2^53, and a numeral too long for a double becomes `Infinity`. So for a very large `page` or `limit`, the `$skip` or `$limit` stage does not fit in 64 bits and the aggregation throws, a 500 (comment.controller.js:43-44, video.controller.js:354). The model instead serves the page or a 404.
- JsText.IsValidObjectId: accepts exactly 24 hexadecimal characters. Mongoose also accepts 12-character strings and ObjectId instances.
- Users.Clashes: an absent email in the `$or` query matches a stored user without an email, as a `null` filter would. Mongoose's treatment of `undefined` filter values is not part of this model.
- The like schema (`src/models/like.model.js`) is not part of this model. The toggles take Mongoose to keep the `videoId`, `commentId`, `tweetId` and `userId` paths as written. Under strict mode an undeclared path would be dropped from `create` and from filters, which changes what the toggles store and find.
- Users.RegisterUser: the user schema (`src/models/user.model.js`) is not part of this model. Its validators and unique indexes, if any, could turn a stored duplicate or an absent required field into a 500.
- Users.RegisteredUserShape: the user schema's save hooks are not part of this model. A pre-save hook that hashes the password would make the stored password a hash of the sent one, not the sent one.
- Users.CaseVariantSharesUsername: the user schema's setters are not part of this model. A `lowercase` or `trim` setter on `username` would apply to the uniqueness filter as well as to `create`, and then case variants would clash with a 409.
- Dashboard.StatsMissToggledLikes: under Mongoose's `strictQuery`, a filter on a path the like schema does not declare is dropped. If `video` is undeclared, `countDocuments` would count every like in the collection rather than none.
- Request body and query fields are taken to be strings or absent. A JSON body can carry a number, an array or an object, and a repeated query key arrives as an array: `{"content": 5}` has no `trim`, so `addComment` answers 500, while `createTweet` stores it. These inputs are not modelled.
- Behaviour a reader may not expect, which the model follows as written:
  - Malformed ids give 400 or 500 depending on the handler.
  - Not-found is a 400 in `deleteVideo`, `updateVideo` and `togglePublishStatus`, and a 500 in `deleteTweet`.
  - Comment paging has no sort and no tie-break: rows come in store order.
  - Video listings have no tie-break among equal keys. `Sorting.SortBy` fixes one order, and its contract promises only sortedness and permutation.

## Findings

| source | as written | input that shows it | evidently intended | confidence | as-written member | corrected member |
|---|---|---|---|---|---|---|
| src/controllers/dashboard.controller.js:20 | `totalLikes` counts likes whose `video` field is one of the caller's video ids; the like toggles (src/controllers/like.controller.js:21) store the id in `videoId` | a database whose likes all come from the toggles, after any user likes one of the caller's videos: `totalLikes` is 0 | count likes whose `videoId` is one of the caller's video ids | medium, not executed | Dashboard.StatsMissToggledLikes | Dashboard.CorrectedStatsCountToggledLikes |
| src/controllers/user.controller.js:22 | `req.files?.coverImage[0]?.path` indexes the cover image field without a guard | a multipart registration that sends an avatar file and no cover image field: `coverImage[0]` throws, and the answer is a 500 | the cover image is optional (line 36 falls back to ""), so registration proceeds without a cover | medium, not executed | Users.MissingCoverFailsAsWritten | Users.MissingCoverAcceptedCorrected |

=== FILE: comments.dfy ===
/** The comment handlers (`src/controllers/comment.controller.js`): the
    paged comment thread of a video, and adding, editing and deleting a
    comment. */
module Comments {
  import opened Outcomes
  import opened Records
  import opened JsText
  import Seqs

  /** The comments on `videoId` (`$match: { video }`). */
  function OnVideo(videoId: Id): Comment -> bool {
    (c: Comment) => c.video == videoId
  }

  /** The whole thread of a video before paging: its comments in store
      order whose author exists, each with the author's profile. */
  function Thread(db: Db, videoId: Id): (rows: seq<Joined<Comment>>)
    ensures Items(rows) == Seqs.Filter(Seqs.Filter(db.comments, OnVideo(videoId)), Resolves(db.users, CommentOwner))
    ensures forall i :: 0 <= i < |rows| ==> rows[i].item.video == videoId
  {
    var own := Seqs.Filter(db.comments, OnVideo(videoId));
    JoinKeeps(own, CommentOwner, db.users, OnVideo(videoId));
    JoinUsers(own, CommentOwner, db.users)
  }

  /** A page of the thread, with the `page` and `limit` numbers it was
      read with. */
  datatype CommentPage = CommentPage(rows: seq<Joined<Comment>>, page: int, limit: int)

  /** The paging parameters are numbers (absent ones default to 1 and
      10) and both at least 1. */
  predicate ValidPaging(page: Option<string>, limit: Option<string>) {
    var p := ParseQueryInt(page, 1);
    var l := ParseQueryInt(limit, 10);
    p.Some? && l.Some? && p.value >= 1 && l.value >= 1
  }

  /** `getVideoComments`. In order: an empty video id is a 400; a `page`
      or `limit` that is not a number or is below 1 is a 400; a video id
      that is not an ObjectId makes the `$match` stage throw (500);
      otherwise the reply is the slice of the thread starting at
      `(page - 1) * limit` of at most `limit` rows, a 404 when that slice
      is empty. */
  function GetVideoComments(db: Db, videoId: Id, page: Option<string>, limit: Option<string>): (r: Res<CommentPage>)
    ensures videoId == "" ==> r == Err(400)
    ensures videoId != "" && !ValidPaging(page, limit) ==> r == Err(400)
    ensures videoId != "" && ValidPaging(page, limit) && !IsValidObjectId(videoId) ==> r == Err(500)
    ensures r.Ok? ==> && r.status == 200
                      && ParseQueryInt(page, 1) == Some(r.value.page) && r.value.page >= 1
                      && ParseQueryInt(limit, 10) == Some(r.value.limit) && r.value.limit >= 1
                      && 0 < |r.value.rows| <= r.value.limit
    ensures r.Ok? ==> r.value.rows == Seqs.Page(Thread(db, videoId), r.value.page, r.value.limit)
    ensures r == Err(404) ==> && ValidPaging(page, limit) && IsValidObjectId(videoId)
                              && Seqs.Page(Thread(db, videoId), ParseQueryInt(page, 1).value, ParseQueryInt(limit, 10).value) == []
    ensures videoId != "" && ValidPaging(page, limit) && IsValidObjectId(videoId) ==>
              && (r.Ok? <==> Seqs.Page(Thread(db, videoId), ParseQueryInt(page, 1).value, ParseQueryInt(limit, 10).value) != [])
              && (r.Err? ==> r == Err(404))
  {
    if videoId == "" then Err(400)
    else
      var p := ParseQueryInt(page, 1);
      var l := ParseQueryInt(limit, 10);
      if p.None? || l.None? || p.value < 1 || l.value < 1 then Err(400)
      else if !IsValidObjectId(videoId) then Err(500)
      else
        var rows := Seqs.Page(Thread(db, videoId), p.value, l.value);
        if |rows| == 0 then Err(404) else Ok(200, CommentPage(rows, p.value, l.value))
  }

  /** Asking for page `p` of size `l` with the numbers written in decimal
      serves exactly that page of the thread, or 404 past its end. */
  lemma GetVideoCommentsServesPage(db: Db, videoId: Id, p: nat, l: nat)
    requires IsValidObjectId(videoId) && p >= 1 && l >= 1
    ensures var rows := Seqs.Page(Thread(db, videoId), p, l);
            GetVideoComments(db, videoId, Some(IntToDecimal(p)), Some(IntToDecimal(l)))
            == if |rows| == 0 then Err(404) else Ok(200, CommentPage(rows, p, l))
  {
    QueryIntOfDecimal(p, 1);
    QueryIntOfDecimal(l, 10);
  }

  /** Leaving `page` and `limit` out serves the first ten comments of the
      thread. */
  lemma GetVideoCommentsDefaults(db: Db, videoId: Id)
    requires IsValidObjectId(videoId)
    ensures var rows := Seqs.Take(Thread(db, videoId), 10);
            GetVideoComments(db, videoId, None, None)
            == if |rows| == 0 then Err(404) else Ok(200, CommentPage(rows, 1, 10))
  {
    assert Seqs.Page(Thread(db, videoId), 1, 10) == Seqs.Take(Thread(db, videoId), 10);
  }

  /** No comment id occurs twice in the store. */
  ghost predicate UniqueIds(comments: seq<Comment>) {
    forall i, j :: 0 <= i < j < |comments| ==> comments[i].id != comments[j].id
  }

  /** With unique comment ids, two different pages of the same size never
      show the same row. */
  lemma ThreadPagesDisjoint(db: Db, videoId: Id, p: nat, q: nat, l: nat, i: nat, j: nat)
    requires UniqueIds(db.comments)
    requires p >= 1 && q >= 1 && l >= 1 && p != q
    requires i < |Seqs.Page(Thread(db, videoId), p, l)| && j < |Seqs.Page(Thread(db, videoId), q, l)|
    ensures Seqs.Page(Thread(db, videoId), p, l)[i] != Seqs.Page(Thread(db, videoId), q, l)[j]
  {
    var own := Seqs.Filter(db.comments, OnVideo(videoId));
    Seqs.FilterDistinct(db.comments, OnVideo(videoId));
    Seqs.FilterDistinct(own, Resolves(db.users, CommentOwner));
    JoinDistinct(own, CommentOwner, db.users);
    Seqs.PagesDisjoint(Thread(db, videoId), p, q, l, i, j);
  }

  /** `addComment` by the signed-in `user`. Content that is absent or all
      white space is a 400, then an empty video id is a 400; a video id
      that is not an ObjectId fails the cast when the comment is saved
      (500). Otherwise the comment is appended with a fresh id and both
      timestamps at the current time, and returned with 201. */
  function AddComment(db: Db, user: Id, videoId: Id, content: Option<string>, freshId: Id, now: int): (out: Reply<Comment>)
    ensures content.None? || IsBlank(content.value) ==> out == Reply(Err(400), db)
    ensures videoId == "" ==> out == Reply(Err(400), db)
    ensures content.Some? && !IsBlank(content.value) && videoId != "" && !IsValidObjectId(videoId)
            ==> out == Reply(Err(500), db)
    ensures out.res.Ok? <==> content.Some? && !IsBlank(content.value) && videoId != "" && IsValidObjectId(videoId)
    ensures out.res.Err? ==> out.db == db
    ensures out.res.Ok? ==> && out.res.status == 201
                            && out.res.value == Comment(freshId, videoId, content.value, user, now, now)
                            && out.db == db.(comments := db.comments + [out.res.value])
  {
    MissingOrBlankMeaning(content);
    if MissingOrBlank(content) then Reply(Err(400), db)
    else if videoId == "" then Reply(Err(400), db)
    else if !IsValidObjectId(videoId) then Reply(Err(500), db)
    else
      var c := Comment(freshId, videoId, content.value, user, now, now);
      Reply(Ok(201, c), db.(comments := db.comments + [c]))
  }

  /** Appending a comment on the video by an existing user adds it as the
      last row of the thread. */
  lemma ThreadAfterAppend(db: Db, videoId: Id, c: Comment)
    requires c.video == videoId && FindUser(db.users, c.owner).Some?
    ensures Items(Thread(db.(comments := db.comments + [c]), videoId)) == Items(Thread(db, videoId)) + [c]
  {
    var db' := db.(comments := db.comments + [c]);
    var own := Seqs.Filter(db.comments, OnVideo(videoId));
    var resolves := Resolves(db.users, CommentOwner);
    assert resolves(c) by {
      assert CommentOwner(c) == c.owner;
    }
    Seqs.FilterAppend(db.comments, c, OnVideo(videoId));
    assert Seqs.Filter(db'.comments, OnVideo(videoId)) == own + [c];
    Seqs.FilterAppend(own, c, resolves);
    assert Seqs.Filter(own + [c], resolves) == Seqs.Filter(own, resolves) + [c];
  }

  /** A comment added by an existing user closes the video's thread. */
  lemma AddedCommentEndsThread(db: Db, user: Id, videoId: Id, content: Option<string>, freshId: Id, now: int)
    requires AddComment(db, user, videoId, content, freshId, now).res.Ok?
    requires FindUser(db.users, user).Some?
    ensures var after := AddComment(db, user, videoId, content, freshId, now).db;
            var t := Thread(after, videoId);
            |t| == |Thread(db, videoId)| + 1 && t[|t| - 1].item == Comment(freshId, videoId, content.value, user, now, now)
  {
    var c := Comment(freshId, videoId, content.value, user, now, now);
    ThreadAfterAppend(db, videoId, c);
    var items := Items(Thread(db.(comments := db.comments + [c]), videoId));
    assert items[|items| - 1] == c;
  }

  /** `updateComment` at time `now`. An empty id is a 400, then absent or
      blank content is a 400; an id that is not an ObjectId fails the cast
      (500); an unknown id is a 404. Otherwise the content of that comment
      is set and the update stamps its `updatedAt` with `now`; nothing else
      changes, and the updated comment is returned. */
  function UpdateComment(db: Db, commentId: Id, content: Option<string>, now: int): (out: Reply<Comment>)
    ensures commentId == "" || content.None? || IsBlank(content.value) ==> out == Reply(Err(400), db)
    ensures (commentId != "" && content.Some? && !IsBlank(content.value) && !IsValidObjectId(commentId))
            ==> out == Reply(Err(500), db)
    ensures (commentId != "" && content.Some? && !IsBlank(content.value) && IsValidObjectId(commentId)
             && CommentIndex(db.comments, commentId).None?) ==> out == Reply(Err(404), db)
    ensures out.res.Ok? <==> (commentId != "" && content.Some? && !IsBlank(content.value) && IsValidObjectId(commentId)
                              && CommentIndex(db.comments, commentId).Some?)
    ensures out.res.Err? ==> out.db == db
    ensures out.res.Ok? ==>
              && out.res.status == 200 && content.Some? && !IsBlank(content.value)
              && CommentIndex(db.comments, commentId).Some?
              && var i := CommentIndex(db.comments, commentId).value;
                 && out.res.value == db.comments[i].(content := content.value, updatedAt := now)
                 && out.res.value.id == commentId
                 && |out.db.comments| == |db.comments|
                 && out.db.comments[i] == out.res.value
                 && (forall j :: 0 <= j < |db.comments| && j != i ==> out.db.comments[j] == db.comments[j])
                 && out.db == db.(comments := out.db.comments)
  {
    MissingOrBlankMeaning(content);
    if commentId == "" then Reply(Err(400), db)
    else if MissingOrBlank(content) then Reply(Err(400), db)
    else if !IsValidObjectId(commentId) then Reply(Err(500), db)
    else match CommentIndex(db.comments, commentId)
      case None => Reply(Err(404), db)
      case Some(i) =>
        var c := db.comments[i].(content := content.value, updatedAt := now);
        Reply(Ok(200, c), db.(comments := ReplaceAt(db.comments, i, c)))
  }

  /** Repeating an update changes nothing more than the update time: two
      updates with the same content answer and leave the store as one
      update at the later time does. */
  lemma UpdateCommentIdempotent(db: Db, commentId: Id, content: Option<string>, now: int, later: int)
    ensures var once := UpdateComment(db, commentId, content, now);
            UpdateComment(once.db, commentId, content, later) == UpdateComment(db, commentId, content, later)
  {
    if commentId != "" && !MissingOrBlank(content) && IsValidObjectId(commentId)
       && CommentIndex(db.comments, commentId).Some? {
      UpdateFoundCommentTwice(db, commentId, content, now, later);
    } else {
      assert UpdateComment(db, commentId, content, now).db == db;
    }
  }

  /** The case of `UpdateCommentIdempotent` where the update succeeds. */
  lemma UpdateFoundCommentTwice(db: Db, commentId: Id, content: Option<string>, now: int, later: int)
    requires commentId != "" && !MissingOrBlank(content) && IsValidObjectId(commentId)
    requires CommentIndex(db.comments, commentId).Some?
    ensures var once := UpdateComment(db, commentId, content, now);
            UpdateComment(once.db, commentId, content, later) == UpdateComment(db, commentId, content, later)
  {
    var i := CommentIndex(db.comments, commentId).value;
    var c := db.comments[i].(content := content.value, updatedAt := now);
    var c' := db.comments[i].(content := content.value, updatedAt := later);
    var after := ReplaceAt(db.comments, i, c);
    var db' := db.(comments := after);
    assert UpdateComment(db, commentId, content, now) == Reply(Ok(200, c), db');
    ReplaceKeepsCommentIndex(db.comments, commentId, c);
    assert after[i].(content := content.value, updatedAt := later) == c';
    assert UpdateComment(db', commentId, content, later) == Reply(Ok(200, c'), db'.(comments := ReplaceAt(after, i, c')));
    assert ReplaceAt(after, i, c') == ReplaceAt(db.comments, i, c');
  }

  /** Replacing the comment found for an id by one with the same id keeps
      it the one found. */
  lemma ReplaceKeepsCommentIndex(comments: seq<Comment>, id: Id, c: Comment)
    requires CommentIndex(comments, id).Some? && c.id == id
    ensures var i := CommentIndex(comments, id).value;
            CommentIndex(ReplaceAt(comments, i, c), id) == Some(i)
  {
    var i := CommentIndex(comments, id).value;
    var after := ReplaceAt(comments, i, c);
    forall j | 0 <= j < i
      ensures !HasCommentId(id)(after[j])
    {
      assert after[j] == comments[j];
    }
    Seqs.FirstIndexAt(after, HasCommentId(id), i);
  }

  /** `deleteComment`. An empty id is a 400; an id that is not an ObjectId
      fails the cast (500); an unknown id is a 404. Otherwise the comment
      with that id is removed and nothing else changes. */
  function DeleteComment(db: Db, commentId: Id): (out: Reply<()>)
    ensures commentId == "" ==> out == Reply(Err(400), db)
    ensures commentId != "" && !IsValidObjectId(commentId) ==> out == Reply(Err(500), db)
    ensures commentId != "" && IsValidObjectId(commentId) && CommentIndex(db.comments, commentId).None?
            ==> out == Reply(Err(404), db)
    ensures out.res.Ok? <==> commentId != "" && IsValidObjectId(commentId) && CommentIndex(db.comments, commentId).Some?
    ensures out.res.Err? ==> out.db == db
    ensures out.res.Ok? ==>
              && out.res.status == 200
              && CommentIndex(db.comments, commentId).Some?
              && out.db == db.(comments := Seqs.RemoveAt(db.comments, CommentIndex(db.comments, commentId).value))
              && |out.db.comments| == |db.comments| - 1
  {
    if commentId == "" then Reply(Err(400), db)
    else if !IsValidObjectId(commentId) then Reply(Err(500), db)
    else match CommentIndex(db.comments, commentId)
      case None => Reply(Err(404), db)
      case Some(i) => Reply(Ok(200, ()), db.(comments := Seqs.RemoveAt(db.comments, i)))
  }

  /** With unique ids, a deleted comment is gone: a second delete of the
      same id is a 404. */
  lemma DeleteCommentRemovesIt(db: Db, commentId: Id)
    requires UniqueIds(db.comments)
    requires DeleteComment(db, commentId).res.Ok?
    ensures CommentIndex(DeleteComment(db, commentId).db.comments, commentId).None?
    ensures DeleteComment(DeleteComment(db, commentId).db, commentId) == Reply(Err(404), DeleteComment(db, commentId).db)
  {
    var i := CommentIndex(db.comments, commentId).value;
    var after := DeleteComment(db, commentId).db.comments;
    forall j | 0 <= j < |after|
      ensures after[j].id != commentId
    {
      if j < i {
        assert after[j] == db.comments[j];
      } else {
        assert after[j] == db.comments[j + 1];
      }
    }
  }

  /** Deleting a comment just added under a fresh id gives back the store
      as it was before the add. */
  lemma AddThenDeleteComment(db: Db, user: Id, videoId: Id, content: Option<string>, freshId: Id, now: int)
    requires AddComment(db, user, videoId, content, freshId, now).res.Ok?
    requires IsValidObjectId(freshId)
    requires CommentIndex(db.comments, freshId).None?
    ensures DeleteComment(AddComment(db, user, videoId, content, freshId, now).db, freshId) == Reply(Ok(200, ()), db)
  {
    var added := AddComment(db, user, videoId, content, freshId, now).db.comments;
    var n := |db.comments|;
    assert added[n].id == freshId;
    forall j | 0 <= j < n
      ensures added[j].id != freshId
    {
      assert added[j] == db.comments[j];
    }
    Seqs.FirstIndexAt(added, HasCommentId(freshId), n);
    assert Seqs.RemoveAt(added, n) == db.comments;
  }
}

=== FILE: dashboard.dfy ===
/** The channel dashboard (`src/controllers/dashboard.controller.js`): the
    channel statistics and the channel's video list. */
module Dashboard {
  import opened Outcomes
  import opened Records
  import opened JsText
  import Seqs
  import Likes
  import Subscriptions
  import Videos

  /** The videos of `user` (`Video.find({ owner })`). */
  function OwnedBy(user: Id): Video -> bool {
    (v: Video) => v.owner == user
  }

  /** The ids of some videos, in order. */
  function VideoIds(videos: seq<Video>): (ids: seq<Id>)
    ensures |ids| == |videos|
    ensures forall i :: 0 <= i < |videos| ==> ids[i] == videos[i].id
  {
    if |videos| == 0 then [] else [videos[0].id] + VideoIds(videos[1..])
  }

  /** The filter `{ video: { $in: ids } }` as written: it reads the
      like's `video` field. */
  function VideoFieldIn(ids: seq<Id>): Like -> bool {
    (l: Like) => l.video.Some? && l.video.value in ids
  }

  /** The same filter on the `videoId` field, which the like toggles
      write. */
  function VideoIdIn(ids: seq<Id>): Like -> bool {
    (l: Like) => l.videoId.Some? && l.videoId.value in ids
  }

  /** `user` owns a stored video whose id is `id`. */
  predicate OwnsVideo(videos: seq<Video>, user: Id, id: Id) {
    exists j :: 0 <= j < |videos| && videos[j].owner == user && videos[j].id == id
  }

  /** A like whose `video` field names a video of `user`. */
  function FieldOnOwnVideo(videos: seq<Video>, user: Id): Like -> bool {
    (l: Like) => l.video.Some? && OwnsVideo(videos, user, l.video.value)
  }

  /** A like whose `videoId` field names a video of `user`. */
  function IdOnOwnVideo(videos: seq<Video>, user: Id): Like -> bool {
    (l: Like) => l.videoId.Some? && OwnsVideo(videos, user, l.videoId.value)
  }

  /** The views of the videos of `user`, summed over the whole store. */
  function OwnViews(videos: seq<Video>, user: Id): int {
    if |videos| == 0 then 0
    else (if videos[0].owner == user then videos[0].views else 0) + OwnViews(videos[1..], user)
  }

  datatype Stats = Stats(totalViews: int, totalSubscribers: nat, totalVideos: nat, totalLikes: nat)

  /** `getChannelStats` for the signed-in `user`, as written: the views
      summed over the caller's videos (0 when there are none), the number
      of edges into the caller's channel, the number of the caller's
      videos, and the number of likes whose `video` field names one of
      them. The `!videos` test never fires, as `find` yields an array. */
  function GetChannelStats(db: Db, user: Id): (r: Res<Stats>)
    ensures r.Ok? && r.status == 200
    ensures && r.value.totalViews == OwnViews(db.videos, user)
            && r.value.totalVideos == Seqs.Count(db.videos, OwnedBy(user))
            && r.value.totalSubscribers == Subscriptions.SubscriberCount(db.subscriptions, user)
            && r.value.totalLikes == Seqs.Count(db.likes, FieldOnOwnVideo(db.videos, user))
  {
    var mine := Seqs.Filter(db.videos, OwnedBy(user));
    FilteredViewsAreOwnViews(db.videos, user);
    LikeCountsAgree(db.likes, db.videos, user);
    Ok(200, Stats(Videos.TotalViews(mine),
                  Subscriptions.SubscriberCount(db.subscriptions, user),
                  |mine|,
                  Seqs.Count(db.likes, VideoFieldIn(VideoIds(mine)))))
  }

  /** `getChannelStats` with the like count read from `videoId`, the field
      the like toggles write. */
  function GetChannelStatsCorrected(db: Db, user: Id): (r: Res<Stats>)
    ensures r.Ok? && r.status == 200
    ensures r.value == GetChannelStats(db, user).value.(totalLikes := r.value.totalLikes)
    ensures r.value.totalLikes == Seqs.Count(db.likes, IdOnOwnVideo(db.videos, user))
  {
    var mine := Seqs.Filter(db.videos, OwnedBy(user));
    LikeCountsAgree(db.likes, db.videos, user);
    Ok(200, GetChannelStats(db, user).value.(totalLikes := Seqs.Count(db.likes, VideoIdIn(VideoIds(mine)))))
  }

  /** Summing the views of the filtered list, as the `reduce` does, is
      summing the caller's views over the whole store. */
  lemma {:induction false} FilteredViewsAreOwnViews(videos: seq<Video>, user: Id)
    ensures Videos.TotalViews(Seqs.Filter(videos, OwnedBy(user))) == OwnViews(videos, user)
  {
    if |videos| > 0 {
      FilteredViewsAreOwnViews(videos[1..], user);
      FilterConsViews(videos, OwnedBy(user));
    }
  }

  /** An id is among the ids the statistics collect exactly when it is the
      id of a stored video of the caller. */
  lemma OwnIdsListed(videos: seq<Video>, user: Id, id: Id)
    ensures id in VideoIds(Seqs.Filter(videos, OwnedBy(user))) <==> OwnsVideo(videos, user, id)
  {
    var mine := Seqs.Filter(videos, OwnedBy(user));
    if OwnsVideo(videos, user, id) {
      var j :| 0 <= j < |videos| && videos[j].owner == user && videos[j].id == id;
      OwnVideoIdListed(videos, user, id, j);
    }
    if id in VideoIds(mine) {
      var k :| 0 <= k < |mine| && VideoIds(mine)[k] == id;
      Seqs.FilterMembers(videos, OwnedBy(user));
      assert mine[k] in videos && OwnedBy(user)(mine[k]);
      var j :| 0 <= j < |videos| && videos[j] == mine[k];
      assert videos[j].owner == user && videos[j].id == id;
    }
  }

  /** The `$in` filters over the collected ids count the same likes as the
      predicates over the stored videos. */
  lemma LikeCountsAgree(likes: seq<Like>, videos: seq<Video>, user: Id)
    ensures Seqs.Count(likes, VideoFieldIn(VideoIds(Seqs.Filter(videos, OwnedBy(user)))))
            == Seqs.Count(likes, FieldOnOwnVideo(videos, user))
    ensures Seqs.Count(likes, VideoIdIn(VideoIds(Seqs.Filter(videos, OwnedBy(user)))))
            == Seqs.Count(likes, IdOnOwnVideo(videos, user))
  {
    var ids := VideoIds(Seqs.Filter(videos, OwnedBy(user)));
    forall i | 0 <= i < |likes|
      ensures VideoFieldIn(ids)(likes[i]) == FieldOnOwnVideo(videos, user)(likes[i])
      ensures VideoIdIn(ids)(likes[i]) == IdOnOwnVideo(videos, user)(likes[i])
    {
      if likes[i].video.Some? {
        OwnIdsListed(videos, user, likes[i].video.value);
      }
      if likes[i].videoId.Some? {
        OwnIdsListed(videos, user, likes[i].videoId.value);
      }
    }
    Seqs.CountAgree(likes, VideoFieldIn(ids), FieldOnOwnVideo(videos, user));
    Seqs.CountAgree(likes, VideoIdIn(ids), IdOnOwnVideo(videos, user));
  }

  /** `getChannelVideos` for the signed-in `user`: the caller's videos in
      store order, all of them and only them. */
  function GetChannelVideos(db: Db, user: Id): (r: Res<seq<Video>>)
    ensures r.Ok? && r.status == 200
    ensures forall i :: 0 <= i < |r.value| ==> r.value[i].owner == user && r.value[i] in db.videos
    ensures forall i :: 0 <= i < |db.videos| && db.videos[i].owner == user ==> db.videos[i] in r.value
    ensures |r.value| == Seqs.Count(db.videos, OwnedBy(user))
    ensures forall v :: multiset(r.value)[v] == if v.owner == user then multiset(db.videos)[v] else 0
    ensures forall k :: 0 <= k <= |db.videos| ==> Seqs.Filter(db.videos[..k], OwnedBy(user)) <= r.value
  {
    Seqs.FilterMembers(db.videos, OwnedBy(user));
    assert forall v :: multiset(Seqs.Filter(db.videos, OwnedBy(user)))[v]
                       == if v.owner == user then multiset(db.videos)[v] else 0 by {
      forall v {
        Seqs.FilterMultiplicity(db.videos, OwnedBy(user), v);
      }
    }
    assert forall k :: 0 <= k <= |db.videos| ==> Seqs.Filter(db.videos[..k], OwnedBy(user)) <= Seqs.Filter(db.videos, OwnedBy(user)) by {
      forall k | 0 <= k <= |db.videos| {
        Seqs.FilterPrefix(db.videos, OwnedBy(user), k);
      }
    }
    Ok(200, Seqs.Filter(db.videos, OwnedBy(user)))
  }

  /** The statistics agree with the video list: as many videos, and the
      views of the listed videos add up to the total. */
  lemma StatsMatchChannelVideos(db: Db, user: Id)
    ensures GetChannelStats(db, user).value.totalVideos == |GetChannelVideos(db, user).value|
    ensures GetChannelStats(db, user).value.totalViews == Videos.TotalViews(GetChannelVideos(db, user).value)
  {
  }

  /** Replacing a video by one that is selected exactly when it was moves
      the summed views of the selection by the change in that video's
      views, if it is selected. */
  lemma {:induction false} FilterReplaceViews(s: seq<Video>, i: nat, v: Video, p: Video -> bool)
    requires i < |s| && p(s[i]) == p(v)
    ensures Videos.TotalViews(Seqs.Filter(s[i := v], p))
            == Videos.TotalViews(Seqs.Filter(s, p)) + (if p(v) then v.views - s[i].views else 0)
  {
    if i == 0 {
      FilterReplaceHead(s, v, p);
    } else {
      var t := s[i := v];
      assert t[0] == s[0] && t[1..] == s[1..][i - 1 := v] && s[1..][i - 1] == s[i];
      FilterReplaceViews(s[1..], i - 1, v, p);
      FilterConsViews(t, p);
      FilterConsViews(s, p);
    }
  }

  /** The summed views of a selection, one element at a time. */
  lemma FilterConsViews(s: seq<Video>, p: Video -> bool)
    requires |s| > 0
    ensures Videos.TotalViews(Seqs.Filter(s, p))
            == (if p(s[0]) then s[0].views else 0) + Videos.TotalViews(Seqs.Filter(s[1..], p))
  {
    var rest := Seqs.Filter(s[1..], p);
    if p(s[0]) {
      assert Seqs.Filter(s, p) == [s[0]] + rest;
      TotalViewsCons(s[0], rest);
    } else {
      assert Seqs.Filter(s, p) == [] + rest;
      assert [] + rest == rest;
    }
  }

  /** `FilterReplaceViews` at the head of the sequence. */
  lemma FilterReplaceHead(s: seq<Video>, v: Video, p: Video -> bool)
    requires 0 < |s| && p(s[0]) == p(v)
    ensures Videos.TotalViews(Seqs.Filter(s[0 := v], p))
            == Videos.TotalViews(Seqs.Filter(s, p)) + (if p(v) then v.views - s[0].views else 0)
  {
    var t := s[0 := v];
    assert t[0] == v && t[1..] == s[1..];
    FilterConsViews(t, p);
    FilterConsViews(s, p);
  }

  /** The summed views of a sequence led by `x`. */
  lemma TotalViewsCons(x: Video, r: seq<Video>)
    ensures Videos.TotalViews([x] + r) == x.views + Videos.TotalViews(r)
  {
    assert ([x] + r)[1..] == r;
  }

  /** Viewing one of the caller's videos raises the caller's total views
      by exactly one; viewing anyone else's leaves it alone. */
  lemma ViewMovesTotalViews(db: Db, user: Id, videoId: Id, now: int)
    requires IsValidObjectId(videoId) && VideoIndex(db.videos, videoId).Some?
    ensures var after := Videos.GetVideoById(db, videoId, now).db;
            var i := VideoIndex(db.videos, videoId).value;
            GetChannelStats(after, user).value.totalViews
            == GetChannelStats(db, user).value.totalViews + (if db.videos[i].owner == user then 1 else 0)
  {
    var i := VideoIndex(db.videos, videoId).value;
    var viewed := db.videos[i].(views := db.videos[i].views + 1, updatedAt := now);
    var after := Videos.GetVideoById(db, videoId, now).db;
    assert after.videos == db.videos[i := viewed];
    assert GetChannelStats(after, user).value.totalViews == Videos.TotalViews(Seqs.Filter(db.videos[i := viewed], OwnedBy(user)));
    assert OwnedBy(user)(viewed) == OwnedBy(user)(db.videos[i]);
    FilterReplaceViews(db.videos, i, viewed, OwnedBy(user));
  }

  /** Publishing a video raises the publisher's video count by one. */
  lemma PublishAddsVideo(db: Db, user: Id, title: Option<string>, description: Option<string>, files: Videos.VideoFiles,
                         upload: string -> Option<Upload>, freshId: Id, now: int)
    requires Videos.PublishAVideo(db, user, title, description, files, upload, freshId, now).res.Ok?
    ensures GetChannelStats(Videos.PublishAVideo(db, user, title, description, files, upload, freshId, now).db, user).value.totalVideos
            == GetChannelStats(db, user).value.totalVideos + 1
  {
    var v := Videos.PublishAVideo(db, user, title, description, files, upload, freshId, now).res.value;
    Seqs.AppendEffect(db.videos, v, OwnedBy(user));
  }

  /** A subscription toggle on the caller's channel moves the caller's
      subscriber total by exactly one. */
  lemma SubscriptionMovesSubscriberTotal(db: Db, subscriber: Id, user: Id)
    requires IsValidObjectId(user) && IsValidObjectId(subscriber)
    ensures var after := Subscriptions.ToggleSubscription(db, subscriber, user).db;
            GetChannelStats(after, user).value.totalSubscribers
            == GetChannelStats(db, user).value.totalSubscribers
               + (if Subscriptions.IsSubscribed(db.subscriptions, subscriber, user) then -1 else 1)
  {
    Subscriptions.ToggleMovesSubscriberCount(db, subscriber, user);
  }

  /** As written, the like total never counts a like made by the toggles:
      in a store whose likes all come from the toggles it is 0, even right
      after someone likes one of the caller's videos. */
  lemma StatsMissToggledLikes(db: Db, user: Id, liker: Id, videoId: Id)
    requires Likes.AllCanonical(db.likes)
    requires Likes.ValidTarget(Likes.OnVideo(videoId))
    requires !Likes.IsLiked(db.likes, liker, Likes.OnVideo(videoId))
    requires exists i :: 0 <= i < |db.videos| && db.videos[i].id == videoId && db.videos[i].owner == user
    ensures var after := Likes.ToggleVideoLike(db, liker, videoId).db;
            && Likes.IsLiked(after.likes, liker, Likes.OnVideo(videoId))
            && GetChannelStats(after, user).value.totalLikes == 0
  {
    var after := Likes.ToggleVideoLike(db, liker, videoId).db;
    Likes.TogglePreservesCanonical(db, liker, Likes.OnVideo(videoId));
    Seqs.AppendEffect(db.likes, Likes.NewLike(liker, Likes.OnVideo(videoId)), Likes.KeyOf(liker, Likes.OnVideo(videoId)));
    var ids := VideoIds(Seqs.Filter(after.videos, OwnedBy(user)));
    assert forall k :: 0 <= k < |after.likes| ==> !VideoFieldIn(ids)(after.likes[k]);
  }

  /** The id of one of the caller's videos is among the ids the
      statistics collect. */
  lemma {:induction false} OwnVideoIdListed(videos: seq<Video>, user: Id, videoId: Id, i: nat)
    requires i < |videos| && videos[i].id == videoId && videos[i].owner == user
    ensures videoId in VideoIds(Seqs.Filter(videos, OwnedBy(user)))
  {
    var rest := Seqs.Filter(videos[1..], OwnedBy(user));
    if OwnedBy(user)(videos[0]) {
      assert Seqs.Filter(videos, OwnedBy(user)) == [videos[0]] + rest;
      VideoIdsCons(videos[0], rest);
      if i > 0 {
        OwnVideoIdListed(videos[1..], user, videoId, i - 1);
      }
    } else {
      assert Seqs.Filter(videos, OwnedBy(user)) == [] + rest;
      assert [] + rest == rest;
      OwnVideoIdListed(videos[1..], user, videoId, i - 1);
    }
  }

  lemma VideoIdsCons(x: Video, r: seq<Video>)
    ensures VideoIds([x] + r) == [x.id] + VideoIds(r)
  {
    assert ([x] + r)[1..] == r;
  }

  /** With the like total read from `videoId`, a like toggle on one of the
      caller's videos moves it by exactly one, down when it unlikes and up
      when it likes. */
  lemma CorrectedStatsCountToggledLikes(db: Db, user: Id, liker: Id, videoId: Id)
    requires Likes.ValidTarget(Likes.OnVideo(videoId))
    requires exists i :: 0 <= i < |db.videos| && db.videos[i].id == videoId && db.videos[i].owner == user
    ensures var after := Likes.ToggleVideoLike(db, liker, videoId).db;
            GetChannelStatsCorrected(after, user).value.totalLikes
            == GetChannelStatsCorrected(db, user).value.totalLikes
               + (if Likes.IsLiked(db.likes, liker, Likes.OnVideo(videoId)) then -1 else 1)
  {
    var t := Likes.OnVideo(videoId);
    var key := Likes.KeyOf(liker, t);
    var counted := IdOnOwnVideo(db.videos, user);
    assert forall l :: key(l) ==> counted(l);
    Seqs.ToggleMovesCount(db.likes, key, Likes.NewLike(liker, t), counted);
  }
}

=== FILE: js_text.dfy ===
/** The JavaScript string primitives the handlers rely on: truthiness of a
    request field, `String.prototype.trim`, `toLowerCase`,
    `parseInt(x, 10)`, and Mongoose's `isValidObjectId`. */
module JsText {
  import opened Outcomes

  /** The ECMAScript WhiteSpace and LineTerminator code points: what `trim`
      strips and what `parseInt` skips before the number. */
  predicate IsSpace(c: char) {
    var n := c as int;
    n == 0x09 || n == 0x0A || n == 0x0B || n == 0x0C || n == 0x0D
    || n == 0x20 || n == 0xA0 || n == 0x1680 || (0x2000 <= n <= 0x200A)
    || n == 0x2028 || n == 0x2029 || n == 0x202F || n == 0x205F
    || n == 0x3000 || n == 0xFEFF
  }

  /** Every character of `s` is white space (the empty string included). */
  predicate IsBlank(s: string) {
    forall i :: 0 <= i < |s| ==> IsSpace(s[i])
  }

  /** `s` with its leading white space removed. */
  function TrimStart(s: string): (r: string)
    ensures |r| <= |s| && r == s[|s| - |r|..]
    ensures forall i :: 0 <= i < |s| - |r| ==> IsSpace(s[i])
    ensures r == [] || !IsSpace(r[0])
  {
    if |s| > 0 && IsSpace(s[0]) then TrimStart(s[1..]) else s
  }

  /** `s` with its trailing white space removed. */
  function TrimEnd(s: string): (r: string)
    ensures |r| <= |s| && r == s[..|r|]
    ensures forall i :: |r| <= i < |s| ==> IsSpace(s[i])
    ensures r == [] || !IsSpace(r[|r| - 1])
  {
    if |s| > 0 && IsSpace(s[|s| - 1]) then TrimEnd(s[..|s| - 1]) else s
  }

  /** `String.prototype.trim`. */
  function Trim(s: string): string {
    TrimEnd(TrimStart(s))
  }

  /** `trim` yields the empty string exactly when the input is all white
      space. */
  lemma TrimEmptyIffBlank(s: string)
    ensures Trim(s) == "" <==> IsBlank(s)
  {
    var t := TrimStart(s);
    if Trim(s) != "" {
      var r := Trim(s);
      assert r == t[..|r|];
      assert !IsSpace(t[0]);
      assert t[0] == s[|s| - |t|];
    }
  }

  /** JavaScript's `!x` for a request field that is a string or absent:
      `undefined` and `""` are falsy. */
  predicate Falsy(x: Option<string>) {
    x.None? || x.value == ""
  }

  /** The guard `!content || content.trim() === ""` of the comment
      handlers. */
  predicate MissingOrBlank(x: Option<string>) {
    Falsy(x) || Trim(x.value) == ""
  }

  /** The comment guard rejects precisely the absent field and the
      all-white-space strings. */
  lemma MissingOrBlankMeaning(x: Option<string>)
    ensures MissingOrBlank(x) <==> x.None? || IsBlank(x.value)
  {
    if x.Some? {
      TrimEmptyIffBlank(x.value);
    }
  }

  /** The test `field?.trim() === ""` of registration: only a supplied
      field can fail it, `undefined` passes. */
  predicate SuppliedButBlank(x: Option<string>) {
    x.Some? && Trim(x.value) == ""
  }

  predicate IsUpper(c: char) {
    'A' <= c <= 'Z'
  }

  function LowerChar(c: char): char {
    if IsUpper(c) then (c as int + 32) as char else c
  }

  /** `toLowerCase`, restricted to the ASCII letters. */
  function ToLower(s: string): (r: string)
    ensures |r| == |s|
    ensures forall i :: 0 <= i < |s| ==> r[i] == LowerChar(s[i])
  {
    if |s| == 0 then [] else [LowerChar(s[0])] + ToLower(s[1..])
  }

  /** The lowered string has no upper-case letter left, lowering it again
      changes nothing, and strings that differ only in letter case lower
      to the same value. */
  lemma ToLowerProperties(s: string, t: string)
    ensures forall i :: 0 <= i < |s| ==> !IsUpper(ToLower(s)[i])
    ensures ToLower(ToLower(s)) == ToLower(s)
    ensures |s| == |t| && (forall i :: 0 <= i < |s| ==> LowerChar(s[i]) == LowerChar(t[i]))
            ==> ToLower(s) == ToLower(t)
  {
  }

  predicate IsDigit(c: char) {
    '0' <= c <= '9'
  }

  function DigitValue(c: char): nat
    requires IsDigit(c)
  {
    c as int - '0' as int
  }

  function DigitChar(d: nat): (c: char)
    requires d < 10
    ensures IsDigit(c) && DigitValue(c) == d
  {
    ('0' as int + d) as char
  }

  /** The longest prefix of `s` made of decimal digits. */
  function DigitPrefix(s: string): (r: string)
    ensures |r| <= |s| && r == s[..|r|]
    ensures forall i :: 0 <= i < |r| ==> IsDigit(r[i])
    ensures |r| == |s| || !IsDigit(s[|r|])
  {
    if |s| > 0 && IsDigit(s[0]) then [s[0]] + DigitPrefix(s[1..]) else []
  }

  /** The value of a string of decimal digits, most significant first. */
  function DigitsValue(d: string): nat
    requires forall i :: 0 <= i < |d| ==> IsDigit(d[i])
  {
    if |d| == 0 then 0 else DigitsValue(d[..|d| - 1]) * 10 + DigitValue(d[|d| - 1])
  }

  /** `parseInt(s, 10)`: skip leading white space, read an optional sign,
      then the longest run of digits; `None` is `NaN` (no digit at all).
      Numbers beyond 2^53 keep their exact value here. */
  function ParseInt(s: string): Option<int> {
    ParseSigned(TrimStart(s))
  }

  /** What `parseInt` reads once the leading white space is gone: an
      optional sign, then the digits. */
  function ParseSigned(t: string): Option<int> {
    if |t| > 0 && t[0] == '-' then
      match ParseDigits(t[1..])
      case None => None
      case Some(v) => Some(-(v as int))
    else if |t| > 0 && t[0] == '+' then ParseDigits(t[1..])
    else ParseDigits(t)
  }

  /** The value of the longest digit prefix; `None` when there is none. */
  function ParseDigits(b: string): Option<nat> {
    var digits := DigitPrefix(b);
    if |digits| == 0 then None else Some(DigitsValue(digits))
  }

  /** The decimal numeral of `n` with no leading zeros. */
  function NatToDecimal(n: nat): (r: string)
    ensures |r| > 0
    ensures forall i :: 0 <= i < |r| ==> IsDigit(r[i])
  {
    if n < 10 then [DigitChar(n)] else NatToDecimal(n / 10) + [DigitChar(n % 10)]
  }

  /** The decimal numeral of `n`, with a `-` when negative (JavaScript's
      `String(n)` for integers). */
  function IntToDecimal(n: int): string {
    if n < 0 then "-" + NatToDecimal(-n) else NatToDecimal(n)
  }

  lemma {:induction false} DigitsValueOfDecimal(n: nat)
    ensures DigitsValue(NatToDecimal(n)) == n
  {
    if n >= 10 {
      var d := NatToDecimal(n);
      var p := NatToDecimal(n / 10);
      assert d[..|d| - 1] == p;
      DigitsValueOfDecimal(n / 10);
    }
  }

  lemma {:induction false} DigitPrefixOfDigits(d: string, rest: string)
    requires forall i :: 0 <= i < |d| ==> IsDigit(d[i])
    requires rest == [] || !IsDigit(rest[0])
    ensures DigitPrefix(d + rest) == d
  {
    if |d| > 0 {
      assert (d + rest)[1..] == d[1..] + rest;
      DigitPrefixOfDigits(d[1..], rest);
    } else {
      assert d + rest == rest;
    }
  }

  /** A string that does not start with white space is its own
      `TrimStart`. */
  lemma TrimStartNoSpace(s: string)
    requires |s| > 0 && !IsSpace(s[0])
    ensures TrimStart(s) == s
  {
  }

  /** `parseInt` reads back every integer from its decimal numeral, also
      when the numeral is followed by text that does not start with a
      digit (`parseInt("12px", 10) == 12`). */
  lemma ParseIntOfDecimal(n: int, rest: string)
    requires rest == [] || !IsDigit(rest[0])
    ensures ParseInt(IntToDecimal(n) + rest) == Some(n)
  {
    if n < 0 {
      ParseIntOfNegative(n, rest);
    } else {
      ParseIntOfNatural(n, rest);
    }
  }

  lemma ParseIntOfNatural(n: nat, rest: string)
    requires rest == [] || !IsDigit(rest[0])
    ensures ParseInt(NatToDecimal(n) + rest) == Some(n)
  {
    var d := NatToDecimal(n);
    var s := d + rest;
    assert s[0] == d[0];
    TrimStartNoSpace(s);
    DigitsValueOfDecimal(n);
    ParseDigitsOfDigits(d, rest);
  }

  lemma ParseIntOfNegative(n: int, rest: string)
    requires n < 0 && (rest == [] || !IsDigit(rest[0]))
    ensures ParseInt("-" + NatToDecimal(-n) + rest) == Some(n)
  {
    var d := NatToDecimal(-n);
    var s := "-" + d + rest;
    assert s[0] == '-' && s[1..] == d + rest;
    TrimStartNoSpace(s);
    DigitsValueOfDecimal(-n);
    ParseDigitsOfDigits(d, rest);
  }

  lemma ParseDigitsOfDigits(d: string, rest: string)
    requires |d| > 0 && forall i :: 0 <= i < |d| ==> IsDigit(d[i])
    requires rest == [] || !IsDigit(rest[0])
    ensures ParseDigits(d + rest) == Some(DigitsValue(d))
  {
    DigitPrefixOfDigits(d, rest);
  }

  /** White space before the number does not change what `parseInt`
      reads. */
  lemma ParseIntSkipsLeadingSpace(c: char, s: string)
    requires IsSpace(c)
    ensures ParseInt([c] + s) == ParseInt(s)
  {
    assert ([c] + s)[1..] == s;
    assert TrimStart([c] + s) == TrimStart(s);
  }

  /** A query parameter read with `parseInt`, where an absent parameter
      takes the handler's numeric default: `parseInt` of a number reads
      its decimal numeral back (`ParseIntOfDecimal`), so the default
      comes through unchanged. */
  function ParseQueryInt(x: Option<string>, default: nat): Option<int> {
    match x
    case None => Some(default)
    case Some(s) => ParseInt(s)
  }

  /** A query parameter written as a decimal numeral reads back as that
      number. */
  lemma QueryIntOfDecimal(n: nat, default: nat)
    ensures ParseQueryInt(Some(IntToDecimal(n)), default) == Some(n)
  {
    ParseIntOfDecimal(n, "");
    assert IntToDecimal(n) + "" == IntToDecimal(n);
  }

  predicate IsHexDigit(c: char) {
    IsDigit(c) || 'a' <= c <= 'f' || 'A' <= c <= 'F'
  }

  /** Mongoose's `isValidObjectId` on a string, and equally the test that
      `new mongoose.Types.ObjectId(s)` passes without throwing: 24
      hexadecimal characters. */
  predicate IsValidObjectId(s: string) {
    |s| == 24 && forall i :: 0 <= i < |s| ==> IsHexDigit(s[i])
  }
}

=== FILE: likes.dfy ===
/** The like handlers (`src/controllers/like.controller.js`): the three
    toggles and the liked-videos list. */
module Likes {
  import opened Outcomes
  import opened Records
  import opened JsText
  import Seqs

  /** What a like is on. Each kind has its own route and handler, which
      differ only in the field they key on. */
  datatype Target = OnVideo(id: Id) | OnComment(id: Id) | OnTweet(id: Id)

  /** The field the handler for `t`'s kind reads and writes. */
  function TargetField(l: Like, t: Target): Option<Id> {
    match t
    case OnVideo(_) => l.videoId
    case OnComment(_) => l.commentId
    case OnTweet(_) => l.tweetId
  }

  /** `l` matches the handler's filter `{ <kind>Id, userId }`. */
  predicate Holds(l: Like, user: Id, t: Target) {
    l.userId == user && TargetField(l, t) == Some(t.id)
  }

  function KeyOf(user: Id, t: Target): Like -> bool {
    (l: Like) => Holds(l, user, t)
  }

  function OtherKeys(user: Id, t: Target): Like -> bool {
    (l: Like) => !Holds(l, user, t)
  }

  /** The document `Like.create({ <kind>Id, userId })` stores. */
  function NewLike(user: Id, t: Target): Like {
    match t
    case OnVideo(v) => Like(user, Some(v), None, None, None)
    case OnComment(c) => Like(user, None, Some(c), None, None)
    case OnTweet(w) => Like(user, None, None, Some(w), None)
  }

  /** A created like matches its own key and no other. */
  lemma NewLikeHoldsOnlyItsKey(user: Id, t: Target, user': Id, t': Target)
    ensures Holds(NewLike(user, t), user', t') <==> user' == user && t' == t
  {
  }

  /** How many likes of `user` on `t` the collection holds. */
  function LikeCount(likes: seq<Like>, user: Id, t: Target): nat {
    Seqs.Count(likes, KeyOf(user, t))
  }

  predicate IsLiked(likes: seq<Like>, user: Id, t: Target) {
    LikeCount(likes, user, t) > 0
  }

  /** A like is a presence bit: no user likes one target twice. */
  ghost predicate AtMostOnePerKey(likes: seq<Like>) {
    forall user, t :: LikeCount(likes, user, t) <= 1
  }

  /** `l` has the shape the toggles create: exactly one target field and
      no `video` field. */
  predicate Canonical(l: Like) {
    && l.video.None?
    && ((l.videoId.Some? && l.commentId.None? && l.tweetId.None?)
        || (l.videoId.None? && l.commentId.Some? && l.tweetId.None?)
        || (l.videoId.None? && l.commentId.None? && l.tweetId.Some?))
  }

  ghost predicate AllCanonical(likes: seq<Like>) {
    forall i :: 0 <= i < |likes| ==> Canonical(likes[i])
  }

  lemma CanonicalIsNewLike(l: Like, user: Id, t: Target)
    requires Canonical(l) && Holds(l, user, t)
    ensures l == NewLike(user, t)
  {
  }

  /** The message a toggle answers with. */
  datatype LikeState = Liked | Unliked

  /** The guard `!id || !isValidObjectId(id)`, negated. */
  predicate ValidTarget(t: Target) {
    t.id != "" && IsValidObjectId(t.id)
  }

  /** `toggleVideoLike`, `toggleCommentLike` and `toggleTweetLike` for the
      signed-in `user`. A missing or malformed id is a 400 that leaves the
      store alone. Otherwise an existing like is removed and "unliked"
      reported, or one like is created and "liked" reported; likes with
      another key and every other collection are untouched. */
  function ToggleLike(db: Db, user: Id, t: Target): (out: Reply<LikeState>)
    ensures !ValidTarget(t) ==> out == Reply(Err(400), db)
    ensures ValidTarget(t) ==> out.res == Ok(200, if IsLiked(db.likes, user, t) then Unliked else Liked)
    ensures ValidTarget(t) && IsLiked(db.likes, user, t) ==>
              && LikeCount(out.db.likes, user, t) == LikeCount(db.likes, user, t) - 1
              && |out.db.likes| == |db.likes| - 1
    ensures ValidTarget(t) && !IsLiked(db.likes, user, t) ==> out.db.likes == db.likes + [NewLike(user, t)]
    ensures Seqs.Filter(out.db.likes, OtherKeys(user, t)) == Seqs.Filter(db.likes, OtherKeys(user, t))
    ensures out.db == db.(likes := out.db.likes)
  {
    if t.id == "" || !IsValidObjectId(t.id) then Reply(Err(400), db)
    else
      var r := Seqs.Toggle(db.likes, KeyOf(user, t), NewLike(user, t));
      Seqs.ToggleKeepsOthers(db.likes, KeyOf(user, t), NewLike(user, t), OtherKeys(user, t));
      Reply(Ok(200, if r.removed then Unliked else Liked), db.(likes := r.store))
  }

  function ToggleVideoLike(db: Db, user: Id, videoId: Id): Reply<LikeState> {
    ToggleLike(db, user, OnVideo(videoId))
  }

  function ToggleCommentLike(db: Db, user: Id, commentId: Id): Reply<LikeState> {
    ToggleLike(db, user, OnComment(commentId))
  }

  function ToggleTweetLike(db: Db, user: Id, tweetId: Id): Reply<LikeState> {
    ToggleLike(db, user, OnTweet(tweetId))
  }

  /** Toggling an absent like twice gives back exactly the store it
      started from. */
  lemma ToggleTwiceFromUnliked(db: Db, user: Id, t: Target)
    requires ValidTarget(t) && !IsLiked(db.likes, user, t)
    ensures ToggleLike(db, user, t).res == Ok(200, Liked)
    ensures ToggleLike(ToggleLike(db, user, t).db, user, t) == Reply(Ok(200, Unliked), db)
  {
    Seqs.ToggleTwiceFromAbsent(db.likes, KeyOf(user, t), NewLike(user, t));
  }

  /** Toggling a present like twice, in a store of toggle-made likes with
      at most one per key, gives back the same likes; the re-created one
      now sits at the end of the collection. */
  lemma ToggleTwiceFromLiked(db: Db, user: Id, t: Target)
    requires ValidTarget(t) && IsLiked(db.likes, user, t)
    requires AtMostOnePerKey(db.likes) && AllCanonical(db.likes)
    ensures ToggleLike(db, user, t).res == Ok(200, Unliked)
    ensures ToggleLike(ToggleLike(db, user, t).db, user, t).res == Ok(200, Liked)
    ensures multiset(ToggleLike(ToggleLike(db, user, t).db, user, t).db.likes) == multiset(db.likes)
    ensures ToggleLike(ToggleLike(db, user, t).db, user, t).db == db.(likes := ToggleLike(ToggleLike(db, user, t).db, user, t).db.likes)
  {
    assert LikeCount(db.likes, user, t) <= 1;
    forall i | 0 <= i < |db.likes| && KeyOf(user, t)(db.likes[i])
      ensures db.likes[i] == NewLike(user, t)
    {
      CanonicalIsNewLike(db.likes[i], user, t);
    }
    Seqs.ToggleTwiceFromPresent(db.likes, KeyOf(user, t), NewLike(user, t));
  }

  /** A toggle keeps every key at most once. */
  lemma TogglePreservesAtMostOne(db: Db, user: Id, t: Target)
    requires AtMostOnePerKey(db.likes)
    ensures AtMostOnePerKey(ToggleLike(db, user, t).db.likes)
  {
    var after := ToggleLike(db, user, t).db.likes;
    if ValidTarget(t) {
      var r := Seqs.Toggle(db.likes, KeyOf(user, t), NewLike(user, t));
      assert after == r.store;
      forall user', t'
        ensures LikeCount(after, user', t') <= 1
      {
        assert LikeCount(db.likes, user', t') <= 1;
        if r.removed {
          var i :| 0 <= i < |db.likes| && KeyOf(user, t)(db.likes[i]) && r.store == Seqs.RemoveAt(db.likes, i);
          Seqs.RemoveAtCount(db.likes, i, KeyOf(user', t'));
        } else {
          Seqs.AppendEffect(db.likes, NewLike(user, t), KeyOf(user', t'));
          NewLikeHoldsOnlyItsKey(user, t, user', t');
        }
      }
    }
  }

  /** A toggle keeps the store made of toggle-shaped likes. */
  lemma TogglePreservesCanonical(db: Db, user: Id, t: Target)
    requires AllCanonical(db.likes)
    ensures AllCanonical(ToggleLike(db, user, t).db.likes)
  {
    if ValidTarget(t) {
      Seqs.ToggleKeepsAll(db.likes, KeyOf(user, t), NewLike(user, t), IsCanonical());
    }
  }

  function IsCanonical(): Like -> bool {
    (l: Like) => Canonical(l)
  }

  /** Under the at-most-one invariant the reported state is the state the
      store is left in: "liked" exactly when the like is now present. */
  lemma ToggleReportsNewState(db: Db, user: Id, t: Target)
    requires ValidTarget(t) && AtMostOnePerKey(db.likes)
    ensures ToggleLike(db, user, t).res.value == Liked <==> IsLiked(ToggleLike(db, user, t).db.likes, user, t)
  {
    assert LikeCount(db.likes, user, t) <= 1;
    if !IsLiked(db.likes, user, t) {
      Seqs.AppendEffect(db.likes, NewLike(user, t), KeyOf(user, t));
    }
  }

  /** One toggle request: who toggles which target. */
  datatype LikeRequest = LikeRequest(user: Id, target: Target)

  /** The store after serving the requests one after the other. */
  function ApplyToggles(db: Db, reqs: seq<LikeRequest>): Db
    decreases |reqs|
  {
    if |reqs| == 0 then db
    else ApplyToggles(ToggleLike(db, reqs[0].user, reqs[0].target).db, reqs[1..])
  }

  /** Any sequence of toggles, of any kinds, by any users, keeps at most
      one like per (user, target). */
  lemma {:induction false} TogglesPreserveAtMostOne(db: Db, reqs: seq<LikeRequest>)
    requires AtMostOnePerKey(db.likes)
    ensures AtMostOnePerKey(ApplyToggles(db, reqs).likes)
    decreases |reqs|
  {
    if |reqs| > 0 {
      TogglePreservesAtMostOne(db, reqs[0].user, reqs[0].target);
      TogglesPreserveAtMostOne(ToggleLike(db, reqs[0].user, reqs[0].target).db, reqs[1..]);
    }
  }

  /** `userId` liked a video (the filter `{ userId, videoId: { $exists: true } }`). */
  predicate IsVideoLikeOf(l: Like, user: Id) {
    l.userId == user && l.videoId.Some?
  }

  function VideoLikeOf(user: Id): Like -> bool {
    (l: Like) => IsVideoLikeOf(l, user)
  }

  /** `getLikedVideos`: the caller's video likes, in store order; 400 when
      there are none. */
  function GetLikedVideos(db: Db, user: Id): (r: Res<seq<Like>>)
    ensures r.Err? <==> forall i :: 0 <= i < |db.likes| ==> !IsVideoLikeOf(db.likes[i], user)
    ensures r.Err? ==> r.status == 400
    ensures r.Ok? ==> r.status == 200 && |r.value| == Seqs.Count(db.likes, VideoLikeOf(user)) > 0
    ensures r.Ok? ==> forall i :: 0 <= i < |r.value| ==> IsVideoLikeOf(r.value[i], user) && r.value[i] in db.likes
    ensures r.Ok? ==> forall i :: 0 <= i < |db.likes| && IsVideoLikeOf(db.likes[i], user) ==> db.likes[i] in r.value
  {
    var found := Seqs.Filter(db.likes, VideoLikeOf(user));
    Seqs.FilterMembers(db.likes, VideoLikeOf(user));
    if |found| == 0 then Err(400) else Ok(200, found)
  }

  /** After liking a video the caller's liked-videos list holds that
      like. */
  lemma LikedVideoIsListed(db: Db, user: Id, videoId: Id)
    requires ValidTarget(OnVideo(videoId)) && !IsLiked(db.likes, user, OnVideo(videoId))
    ensures GetLikedVideos(ToggleVideoLike(db, user, videoId).db, user).Ok?
    ensures NewLike(user, OnVideo(videoId)) in GetLikedVideos(ToggleVideoLike(db, user, videoId).db, user).value
  {
    var after := ToggleVideoLike(db, user, videoId).db.likes;
    assert after[|after| - 1] == NewLike(user, OnVideo(videoId));
  }
}

=== FILE: outcomes.dfy ===
/** Optional values and handler outcomes shared by every module of the model.

  A handler either answers with an HTTP status and a payload (`Ok`) or
  throws an `ApiError`, which the application turns into a status code
  (`Err`). Messages and JSON envelopes are not modelled. */
module Outcomes {

  /** A value that may be absent: an `undefined` request field, a failed
      upload, a lookup that found nothing. */
  datatype Option<+T> = None | Some(value: T)

  /** The outcome of one request: the status code with its payload, or the
      status code of the error that ended it. */
  datatype Res<+T> = Ok(status: nat, value: T) | Err(status: nat)
}

=== FILE: records.dfy ===
/** The documents the handlers read and write, the database as one value
    holding every collection, and the `$lookup` + `$unwind` join that
    attaches an owner's profile to a document. */
module Records {
  import opened Outcomes
  import Seqs

  /** A document's `_id` (an ObjectId), written as its hexadecimal text. */
  type Id = string

  /** A registered user. `email`, `fullName` and `password` keep whatever the
      registration request carried, absent included. */
  datatype User = User(
    id: Id,
    username: string,
    email: Option<string>,
    fullName: Option<string>,
    avatar: string,
    coverImage: string,
    password: Option<string>,
    refreshToken: Option<string>)

  /** An uploaded video. Times are milliseconds since the epoch. */
  datatype Video = Video(
    id: Id,
    videoFile: string,
    thumbnail: string,
    title: string,
    description: string,
    duration: int,
    views: int,
    isPublished: bool,
    owner: Id,
    createdAt: int,
    updatedAt: int)

  /** A comment; `createdAt` and `updatedAt` are the schema timestamps. */
  datatype Comment = Comment(id: Id, video: Id, content: string, owner: Id, createdAt: int, updatedAt: int)

  /** A tweet; `createdAt` and `updatedAt` are the schema timestamps. */
  datatype Tweet = Tweet(id: Id, content: string, owner: Id, createdAt: int, updatedAt: int)

  /** A like document. The toggles write one of `videoId`, `commentId`,
      `tweetId`; the channel statistics read a field named `video`, which
      no handler writes. */
  datatype Like = Like(
    userId: Id,
    videoId: Option<Id>,
    commentId: Option<Id>,
    tweetId: Option<Id>,
    video: Option<Id>)

  /** A subscription edge: `subscriber` follows `channel`. */
  datatype Subscription = Subscription(subscriber: Id, channel: Id)

  /** Every collection the handlers touch, each in natural order. */
  datatype Db = Db(
    users: seq<User>,
    videos: seq<Video>,
    comments: seq<Comment>,
    tweets: seq<Tweet>,
    likes: seq<Like>,
    subscriptions: seq<Subscription>)

  /** What a handler answers and the database it leaves behind. */
  datatype Reply<T> = Reply(res: Res<T>, db: Db)

  /** What the media host answers for a successful upload: the stored
      file's URL and, for a video, its length in seconds. */
  datatype Upload = Upload(url: string, duration: int)

  /** The public part of a user that the joins project: never the password or
      the refresh token. */
  datatype Profile = Profile(id: Id, username: string, email: Option<string>, avatar: string)

  function ProfileOf(u: User): Profile {
    Profile(u.id, u.username, u.email, u.avatar)
  }

  /** A document with its owner's profile attached. */
  datatype Joined<T> = Joined(item: T, owner: Profile)

  /** The user with `_id == id` (the first, as ids are unique in a
      collection). */
  function FindUser(users: seq<User>, id: Id): (r: Option<User>)
    ensures r.Some? ==> r.value in users && r.value.id == id
    ensures r.None? <==> forall i :: 0 <= i < |users| ==> users[i].id != id
  {
    if |users| == 0 then None
    else if users[0].id == id then Some(users[0])
    else FindUser(users[1..], id)
  }

  /** The document's reference resolves to an existing user, so `$unwind`
      keeps its row. */
  function Resolves<T>(users: seq<User>, ref: T -> Id): T -> bool {
    (t: T) => FindUser(users, ref(t)).Some?
  }

  /** The documents of a join result, without the attached profiles. */
  function Items<T>(rows: seq<Joined<T>>): (r: seq<T>)
    ensures |r| == |rows|
    ensures forall i :: 0 <= i < |rows| ==> r[i] == rows[i].item
  {
    if |rows| == 0 then [] else [rows[0].item] + Items(rows[1..])
  }

  /** `$lookup` from `users` on `ref`, then `$unwind`: each document whose
      reference resolves, in order, with the referenced user's profile;
      documents whose reference does not resolve are dropped. */
  function JoinUsers<T>(docs: seq<T>, ref: T -> Id, users: seq<User>): (rows: seq<Joined<T>>)
    ensures Items(rows) == Seqs.Filter(docs, Resolves(users, ref))
    ensures forall i :: 0 <= i < |rows| ==> FindUser(users, ref(rows[i].item)).Some?
                                            && rows[i].owner == ProfileOf(FindUser(users, ref(rows[i].item)).value)
  {
    if |docs| == 0 then []
    else
      var rest := JoinUsers(docs[1..], ref, users);
      match FindUser(users, ref(docs[0]))
      case None => rest
      case Some(u) =>
        assert Items([Joined(docs[0], ProfileOf(u))] + rest) == [docs[0]] + Items(rest);
        [Joined(docs[0], ProfileOf(u))] + rest
  }

  /** Every joined document is one of the input documents, so a property
      all of them have, every row's document has. */
  lemma {:induction false} JoinKeeps<T>(docs: seq<T>, ref: T -> Id, users: seq<User>, p: T -> bool)
    requires forall i :: 0 <= i < |docs| ==> p(docs[i])
    ensures forall i :: 0 <= i < |JoinUsers(docs, ref, users)| ==> p(JoinUsers(docs, ref, users)[i].item)
  {
    if |docs| > 0 {
      JoinKeeps(docs[1..], ref, users, p);
    }
  }

  /** Rows of documents without duplicates have no duplicates. */
  lemma JoinDistinct<T>(docs: seq<T>, ref: T -> Id, users: seq<User>)
    requires Seqs.Distinct(Seqs.Filter(docs, Resolves(users, ref)))
    ensures Seqs.Distinct(JoinUsers(docs, ref, users))
  {
    var rows := JoinUsers(docs, ref, users);
    var items := Items(rows);
    forall i, j | 0 <= i < j < |rows|
      ensures rows[i] != rows[j]
    {
      assert items[i] != items[j];
    }
  }

  /** When every reference resolves, the join keeps every document. */
  lemma JoinKeepsAllResolved<T>(docs: seq<T>, ref: T -> Id, users: seq<User>)
    requires forall i :: 0 <= i < |docs| ==> FindUser(users, ref(docs[i])).Some?
    ensures Items(JoinUsers(docs, ref, users)) == docs
  {
    FilterAll(docs, Resolves(users, ref));
  }

  lemma {:induction false} FilterAll<T>(s: seq<T>, p: T -> bool)
    requires forall i :: 0 <= i < |s| ==> p(s[i])
    ensures Seqs.Filter(s, p) == s
  {
    if |s| > 0 {
      FilterAll(s[1..], p);
      assert s == [s[0]] + s[1..];
    }
  }

  /** Owner references of the content collections, as first-class
      functions for the join. */
  function VideoOwner(v: Video): Id { v.owner }
  function CommentOwner(c: Comment): Id { c.owner }
  function TweetOwner(t: Tweet): Id { t.owner }
  function Subscriber(e: Subscription): Id { e.subscriber }
  function Channel(e: Subscription): Id { e.channel }

  /** Position of the document with `_id == id`, as `findById` finds it. */
  function VideoIndex(videos: seq<Video>, id: Id): (r: Option<nat>)
    ensures r.Some? ==> r.value < |videos| && videos[r.value].id == id
    ensures r.None? <==> forall i :: 0 <= i < |videos| ==> videos[i].id != id
  {
    Seqs.FirstIndex(videos, HasVideoId(id))
  }

  function HasVideoId(id: Id): Video -> bool {
    (v: Video) => v.id == id
  }

  function CommentIndex(comments: seq<Comment>, id: Id): (r: Option<nat>)
    ensures r.Some? ==> r.value < |comments| && comments[r.value].id == id
    ensures r.None? <==> forall i :: 0 <= i < |comments| ==> comments[i].id != id
  {
    Seqs.FirstIndex(comments, HasCommentId(id))
  }

  function HasCommentId(id: Id): Comment -> bool {
    (c: Comment) => c.id == id
  }

  function TweetIndex(tweets: seq<Tweet>, id: Id): (r: Option<nat>)
    ensures r.Some? ==> r.value < |tweets| && tweets[r.value].id == id
    ensures r.None? <==> forall i :: 0 <= i < |tweets| ==> tweets[i].id != id
  {
    Seqs.FirstIndex(tweets, HasTweetId(id))
  }

  function HasTweetId(id: Id): Tweet -> bool {
    (t: Tweet) => t.id == id
  }

  /** `s` with position `i` replaced by `x`. */
  function ReplaceAt<T>(s: seq<T>, i: nat, x: T): (r: seq<T>)
    requires i < |s|
    ensures |r| == |s| && r[i] == x
    ensures forall j :: 0 <= j < |s| && j != i ==> r[j] == s[j]
  {
    s[i := x]
  }
}

=== FILE: seqs.dfy ===
/** Sequence operations that stand for the database primitives the
    handlers use on a collection: `find` (a filter), `countDocuments` (a
    count), `findOne` (the first match), `deleteOne` / `findByIdAndDelete`
    (removal of the first match), `create` (an append), the find-then-
    delete-or-create toggle, and the `$skip` / `$limit` stages. A
    collection is a sequence in natural (insertion) order. */
module Seqs {
  import opened Outcomes

  /** Number of elements of `s` that satisfy `p`. */
  function Count<T>(s: seq<T>, p: T -> bool): (n: nat)
    ensures n <= |s|
    ensures n == 0 <==> forall i :: 0 <= i < |s| ==> !p(s[i])
  {
    if |s| == 0 then 0 else (if p(s[0]) then 1 else 0) + Count(s[1..], p)
  }

  /** The elements of `s` that satisfy `p`, in their order in `s`. */
  function Filter<T(==)>(s: seq<T>, p: T -> bool): (r: seq<T>)
    ensures |r| == Count(s, p)
    ensures forall i :: 0 <= i < |r| ==> p(r[i])
  {
    if |s| == 0 then []
    else (if p(s[0]) then [s[0]] else []) + Filter(s[1..], p)
  }

  /** Every element of the filtered sequence comes from `s`, and every
      element of `s` that passes the filter is kept. */
  lemma {:induction false} FilterMembers<T>(s: seq<T>, p: T -> bool)
    ensures forall i :: 0 <= i < |Filter(s, p)| ==> Filter(s, p)[i] in s
    ensures forall i :: 0 <= i < |s| && p(s[i]) ==> s[i] in Filter(s, p)
  {
    if |s| > 0 {
      FilterMembers(s[1..], p);
      var r := Filter(s, p);
      var rest := Filter(s[1..], p);
      assert r == (if p(s[0]) then [s[0]] else []) + rest;
      forall i | 0 <= i < |r|
        ensures r[i] in s
      {
        if !(p(s[0]) && i == 0) {
          var k := if p(s[0]) then i - 1 else i;
          assert r[i] == rest[k];
          assert rest[k] in s[1..];
        }
      }
      forall i | 0 <= i < |s| && p(s[i])
        ensures s[i] in r
      {
        if i > 0 {
          assert s[i] == s[1..][i - 1];
        }
      }
    }
  }

  /** A filter of a sequence without duplicates has none either. */
  lemma {:induction false} FilterDistinct<T>(s: seq<T>, p: T -> bool)
    requires Distinct(s)
    ensures Distinct(Filter(s, p))
  {
    if |s| > 0 {
      FilterDistinct(s[1..], p);
      FilterMembers(s[1..], p);
      var rest := Filter(s[1..], p);
      if p(s[0]) {
        var r := [s[0]] + rest;
        forall i, j | 0 <= i < j < |r|
          ensures r[i] != r[j]
        {
          if i == 0 {
            var k :| 0 <= k < |s[1..]| && s[1..][k] == rest[j - 1];
            assert s[k + 1] == r[j];
          }
        }
      }
    }
  }

  /** Two predicates that agree on every element of `s` count it
      alike. */
  lemma {:induction false} CountAgree<T>(s: seq<T>, p: T -> bool, q: T -> bool)
    requires forall i :: 0 <= i < |s| ==> p(s[i]) == q(s[i])
    ensures Count(s, p) == Count(s, q)
  {
    if |s| > 0 {
      assert p(s[0]) == q(s[0]);
      CountAgree(s[1..], p, q);
    }
  }

  lemma {:induction false} CountConcat<T>(a: seq<T>, b: seq<T>, p: T -> bool)
    ensures Count(a + b, p) == Count(a, p) + Count(b, p)
  {
    if |a| > 0 {
      assert (a + b)[1..] == a[1..] + b;
      CountConcat(a[1..], b, p);
    } else {
      assert a + b == b;
    }
  }

  lemma {:induction false} FilterConcat<T>(a: seq<T>, b: seq<T>, p: T -> bool)
    ensures Filter(a + b, p) == Filter(a, p) + Filter(b, p)
  {
    if |a| > 0 {
      assert (a + b)[1..] == a[1..] + b;
      FilterConcat(a[1..], b, p);
    } else {
      assert a + b == b;
    }
  }

  /** `x` is in the filter of `s` exactly when it is in `s` and passes. */
  lemma InFilter<T>(s: seq<T>, p: T -> bool, x: T)
    ensures x in Filter(s, p) <==> x in s && p(x)
  {
    FilterMultiplicity(s, p, x);
  }

  /** A filter keeps the order of `s`: filtering any prefix of `s` gives
      a prefix of the whole filter. */
  lemma FilterPrefix<T>(s: seq<T>, p: T -> bool, k: nat)
    requires k <= |s|
    ensures Filter(s[..k], p) <= Filter(s, p)
  {
    assert s == s[..k] + s[k..];
    FilterConcat(s[..k], s[k..], p);
  }

  /** A filter keeps every copy of an element that passes and none of one
      that does not. */
  lemma {:induction false} FilterMultiplicity<T>(s: seq<T>, p: T -> bool, x: T)
    ensures multiset(Filter(s, p))[x] == if p(x) then multiset(s)[x] else 0
  {
    if |s| > 0 {
      FilterMultiplicity(s[1..], p, x);
      assert s == [s[0]] + s[1..];
      assert Filter(s, p) == (if p(s[0]) then [s[0]] else []) + Filter(s[1..], p);
    }
  }

  /** Filtering two arrangements of the same elements keeps the same
      elements: a filter commutes with sorting. */
  lemma FilterOfPermutation<T>(a: seq<T>, b: seq<T>, p: T -> bool)
    requires multiset(a) == multiset(b)
    ensures multiset(Filter(a, p)) == multiset(Filter(b, p))
    ensures Count(a, p) == Count(b, p)
  {
    FilterMultisetOfPermutation(a, b, p);
    assert |multiset(Filter(a, p))| == |multiset(Filter(b, p))|;
  }

  lemma {:induction false} FilterMultisetOfPermutation<T>(a: seq<T>, b: seq<T>, p: T -> bool)
    requires multiset(a) == multiset(b)
    ensures multiset(Filter(a, p)) == multiset(Filter(b, p))
  {
    if |a| == 0 {
      assert |multiset(b)| == 0;
    } else {
      var x := a[0];
      assert x in multiset(b) by { assert x in multiset(a); }
      var k :| 0 <= k < |b| && b[k] == x;
      assert multiset(a[1..]) == multiset(RemoveAt(b, k)) by {
        assert a == [x] + a[1..];
        RemoveAtMultiset(b, k);
      }
      FilterMultisetOfPermutation(a[1..], RemoveAt(b, k), p);
      FilterPermutationStep(a, b, k, p);
    }
  }

  /** One step of the induction above: matching the head of `a` with
      `b[k]` extends the equality from the tails to the whole. */
  lemma FilterPermutationStep<T>(a: seq<T>, b: seq<T>, k: nat, p: T -> bool)
    requires |a| > 0 && k < |b| && b[k] == a[0]
    requires multiset(Filter(a[1..], p)) == multiset(Filter(RemoveAt(b, k), p))
    ensures multiset(Filter(a, p)) == multiset(Filter(b, p))
  {
    RemoveAtFilterMultiset(b, k, p);
    assert Filter(a, p) == (if p(a[0]) then [a[0]] else []) + Filter(a[1..], p);
  }

  /** Removing one element takes it out of the filtered multiset when it
      passes the filter. */
  lemma {:induction false} RemoveAtFilterMultiset<T>(s: seq<T>, i: nat, p: T -> bool)
    requires i < |s|
    ensures multiset(Filter(s, p)) == multiset(Filter(RemoveAt(s, i), p))
                                      + (if p(s[i]) then multiset{s[i]} else multiset{})
  {
    if i > 0 {
      assert RemoveAt(s, i) == [s[0]] + RemoveAt(s[1..], i - 1);
      assert RemoveAt(s, i)[1..] == RemoveAt(s[1..], i - 1);
      RemoveAtFilterMultiset(s[1..], i - 1, p);
    } else {
      assert RemoveAt(s, 0) == s[1..];
    }
  }

  /** Filtering twice keeps what passes both filters. */
  lemma {:induction false} FilterFilter<T>(s: seq<T>, p: T -> bool, q: T -> bool, pq: T -> bool)
    requires forall x :: pq(x) == (p(x) && q(x))
    ensures Filter(Filter(s, p), q) == Filter(s, pq)
  {
    if |s| > 0 {
      FilterFilter(s[1..], p, q, pq);
      FilterConcat(if p(s[0]) then [s[0]] else [], Filter(s[1..], p), q);
      assert Filter([s[0]], q) == if q(s[0]) then [s[0]] else [] by {
        assert [s[0]][1..] == [];
      }
    }
  }

  /** Position of the first element of `s` that satisfies `p`. */
  function FirstIndex<T>(s: seq<T>, p: T -> bool): (r: Option<nat>)
    ensures r.Some? ==> r.value < |s| && p(s[r.value])
    ensures r.Some? ==> forall j :: 0 <= j < r.value ==> !p(s[j])
    ensures r.None? <==> Count(s, p) == 0
  {
    if |s| == 0 then None
    else if p(s[0]) then Some(0)
    else match FirstIndex(s[1..], p)
      case None => None
      case Some(i) => Some(i + 1)
  }

  /** The first match is where the first match is. */
  lemma FirstIndexAt<T>(s: seq<T>, p: T -> bool, i: nat)
    requires i < |s| && p(s[i])
    requires forall j :: 0 <= j < i ==> !p(s[j])
    ensures FirstIndex(s, p) == Some(i)
  {
  }

  /** `s` without its element at position `i`. */
  function RemoveAt<T>(s: seq<T>, i: nat): (r: seq<T>)
    requires i < |s|
    ensures |r| == |s| - 1
    ensures forall j :: 0 <= j < i ==> r[j] == s[j]
    ensures forall j :: i <= j < |r| ==> r[j] == s[j + 1]
  {
    s[..i] + s[i + 1..]
  }

  /** Removing one element changes the count of a filter by that element
      alone. */
  lemma {:induction false} RemoveAtCount<T>(s: seq<T>, i: nat, p: T -> bool)
    requires i < |s|
    ensures Count(RemoveAt(s, i), p) == Count(s, p) - (if p(s[i]) then 1 else 0)
  {
    if i > 0 {
      assert RemoveAt(s, i) == [s[0]] + RemoveAt(s[1..], i - 1);
      assert RemoveAt(s, i)[1..] == RemoveAt(s[1..], i - 1);
      RemoveAtCount(s[1..], i - 1, p);
    } else {
      assert RemoveAt(s, 0) == s[1..];
    }
  }

  /** Removing an element that a filter rejects leaves the filtered
      sequence as it was. */
  lemma {:induction false} RemoveAtFilter<T>(s: seq<T>, i: nat, p: T -> bool)
    requires i < |s| && !p(s[i])
    ensures Filter(RemoveAt(s, i), p) == Filter(s, p)
  {
    if i > 0 {
      assert RemoveAt(s, i) == [s[0]] + RemoveAt(s[1..], i - 1);
      assert RemoveAt(s, i)[1..] == RemoveAt(s[1..], i - 1);
      RemoveAtFilter(s[1..], i - 1, p);
    } else {
      assert RemoveAt(s, 0) == s[1..];
    }
  }

  /** Removing one element takes exactly that element out of the
      multiset. */
  lemma RemoveAtMultiset<T>(s: seq<T>, i: nat)
    requires i < |s|
    ensures multiset(RemoveAt(s, i)) == multiset(s) - multiset{s[i]}
  {
    assert s == s[..i] + ([s[i]] + s[i + 1..]);
  }

  /** Filtering after an append filters the old part and the new
      element separately. */
  lemma FilterAppend<T>(s: seq<T>, x: T, p: T -> bool)
    ensures Filter(s + [x], p) == Filter(s, p) + (if p(x) then [x] else [])
  {
    FilterConcat(s, [x], p);
    assert [x][1..] == [];
  }

  /** Appending one element changes the count of a filter by that element
      alone. */
  lemma AppendEffect<T>(s: seq<T>, x: T, p: T -> bool)
    ensures Count(s + [x], p) == Count(s, p) + (if p(x) then 1 else 0)
    ensures !p(x) ==> Filter(s + [x], p) == Filter(s, p)
  {
    CountConcat(s, [x], p);
    FilterConcat(s, [x], p);
    assert [x][1..] == [];
  }

  /** The outcome of a find-then-delete-or-create toggle: whether a record
      was removed, and the collection afterwards. */
  datatype Toggled<T> = Toggled(removed: bool, store: seq<T>)

  /** `findOne(key)`; if found, `deleteOne(key)`, which removes the first
      matching record; otherwise `create(created)`, which appends it. */
  function Toggle<T>(s: seq<T>, key: T -> bool, created: T): (r: Toggled<T>)
    ensures r.removed <==> Count(s, key) > 0
    ensures r.removed ==> exists i :: 0 <= i < |s| && key(s[i])
                                      && (forall j :: 0 <= j < i ==> !key(s[j]))
                                      && r.store == RemoveAt(s, i)
    ensures r.removed ==> Count(r.store, key) == Count(s, key) - 1 && |r.store| == |s| - 1
    ensures !r.removed ==> r.store == s + [created]
  {
    match FirstIndex(s, key)
    case Some(i) =>
      RemoveAtCount(s, i, key);
      Toggled(true, RemoveAt(s, i))
    case None => Toggled(false, s + [created])
  }

  /** A property every stored record and the created one have holds of
      every record after a toggle. */
  lemma ToggleKeepsAll<T>(s: seq<T>, key: T -> bool, created: T, inv: T -> bool)
    requires inv(created)
    requires forall i :: 0 <= i < |s| ==> inv(s[i])
    ensures forall i :: 0 <= i < |Toggle(s, key, created).store| ==> inv(Toggle(s, key, created).store[i])
  {
    match FirstIndex(s, key)
    case Some(k) =>
      var r := RemoveAt(s, k);
      forall i | 0 <= i < |r|
        ensures inv(r[i])
      {
        if i >= k {
          assert r[i] == s[i + 1];
        }
      }
    case None =>
      var r := s + [created];
      forall i | 0 <= i < |r|
        ensures inv(r[i])
      {
        if i < |s| {
          assert r[i] == s[i];
        }
      }
  }

  /** A toggle on `key` leaves the records selected by any filter `other`
      that excludes every `key` record exactly as they were, provided the
      created record is itself a `key` record. */
  lemma ToggleKeepsOthers<T>(s: seq<T>, key: T -> bool, created: T, other: T -> bool)
    requires key(created)
    requires forall x :: key(x) ==> !other(x)
    ensures Filter(Toggle(s, key, created).store, other) == Filter(s, other)
    ensures Count(Toggle(s, key, created).store, other) == Count(s, other)
  {
    match FirstIndex(s, key)
    case Some(i) =>
      RemoveAtCount(s, i, other);
      RemoveAtFilter(s, i, other);
    case None =>
      AppendEffect(s, created, other);
  }

  /** A count over a wider predicate that takes in every record with the
      toggled key moves with the toggle: down one when it removes, up one
      when it creates. */
  lemma ToggleMovesCount<T>(s: seq<T>, key: T -> bool, created: T, wider: T -> bool)
    requires wider(created)
    requires forall x :: key(x) ==> wider(x)
    ensures Count(Toggle(s, key, created).store, wider) == Count(s, wider) + (if Count(s, key) > 0 then -1 else 1)
  {
    match FirstIndex(s, key)
    case Some(i) =>
      RemoveAtCount(s, i, wider);
    case None =>
      AppendEffect(s, created, wider);
  }

  /** Toggling twice from a state with no `key` record creates the record
      and then removes that same record: the collection is restored. */
  lemma {:induction false} ToggleTwiceFromAbsent<T>(s: seq<T>, key: T -> bool, created: T)
    requires Count(s, key) == 0 && key(created)
    ensures Toggle(Toggle(s, key, created).store, key, created) == Toggled(true, s)
  {
    var s1 := s + [created];
    AppendEffect(s, created, key);
    var i := FirstIndex(s1, key).value;
    assert forall j :: 0 <= j < |s| ==> s1[j] == s[j];
    assert i == |s|;
    assert RemoveAt(s1, |s|) == s;
  }

  /** Toggling twice from a state whose one `key` record is the record a
      toggle would create gives back the same records, possibly in another
      order: the record moves to the end of the collection. */
  lemma ToggleTwiceFromPresent<T>(s: seq<T>, key: T -> bool, created: T)
    requires Count(s, key) == 1 && key(created)
    requires forall i :: 0 <= i < |s| && key(s[i]) ==> s[i] == created
    ensures Toggle(Toggle(s, key, created).store, key, created).removed == false
    ensures multiset(Toggle(Toggle(s, key, created).store, key, created).store) == multiset(s)
  {
    var i := FirstIndex(s, key).value;
    RemoveAtCount(s, i, key);
    RemoveAtMultiset(s, i);
    assert multiset(RemoveAt(s, i) + [created]) == multiset(RemoveAt(s, i)) + multiset{created};
  }

  /** `$skip: k`. */
  function Skip<T>(s: seq<T>, k: nat): seq<T> {
    if k >= |s| then [] else s[k..]
  }

  /** `$limit: n`. */
  function Take<T>(s: seq<T>, n: nat): seq<T> {
    if n >= |s| then s else s[..n]
  }

  function Min(a: int, b: int): int {
    if a <= b then a else b
  }

  /** Page number `page` of `limit` elements: `$skip: (page - 1) * limit`
      followed by `$limit: limit`. It holds the elements of `s` from
      position `(page - 1) * limit` on, at most `limit` of them, and is
      empty exactly when that position is past the end. */
  function Page<T>(s: seq<T>, page: nat, limit: nat): (r: seq<T>)
    requires page >= 1 && limit >= 1
    ensures |r| <= limit
    ensures |r| == if (page - 1) * limit >= |s| then 0 else Min(limit, |s| - (page - 1) * limit)
    ensures |r| > 0 ==> (page - 1) * limit + |r| <= |s|
    ensures forall i :: 0 <= i < |r| ==> r[i] == s[(page - 1) * limit + i]
  {
    Take(Skip(s, (page - 1) * limit), limit)
  }

  /** Pages 1 to `k`, one after the other. */
  function Pages<T>(s: seq<T>, k: nat, limit: nat): seq<T>
    requires limit >= 1
  {
    if k == 0 then [] else Pages(s, k - 1, limit) + Page(s, k, limit)
  }

  lemma MulStep(k: nat, limit: nat)
    requires k >= 1
    ensures k * limit == (k - 1) * limit + limit
  {
  }

  lemma MulMono(a: nat, b: nat, c: nat)
    requires a <= b
    ensures a * c <= b * c
  {
  }

  /** Reading pages 1 to `k` in turn yields the first `k * limit` elements
      (all of them once `k * limit` passes the end), with no gap and no
      repetition. */
  lemma {:induction false} PagesArePrefix<T>(s: seq<T>, k: nat, limit: nat)
    requires limit >= 1
    ensures Pages(s, k, limit) == Take(s, k * limit)
  {
    if k > 0 {
      PagesArePrefix(s, k - 1, limit);
      var lo := (k - 1) * limit;
      MulStep(k, limit);
      MulMono(0, k - 1, limit);
      var pg := Page(s, k, limit);
      assert Pages(s, k, limit) == Take(s, lo) + pg;
      TakeExtends(s, lo, limit, pg);
    }
  }

  /** The `limit` elements from position `lo` on extend the first `lo`
      to the first `lo + limit`. */
  lemma TakeExtends<T>(s: seq<T>, lo: nat, limit: nat, pg: seq<T>)
    requires |pg| == if lo >= |s| then 0 else Min(limit, |s| - lo)
    requires forall i :: 0 <= i < |pg| ==> pg[i] == s[lo + i]
    ensures Take(s, lo) + pg == Take(s, lo + limit)
  {
    if lo >= |s| {
      assert pg == [];
    } else {
      var hi := Min(lo + limit, |s|);
      assert Take(s, lo) == s[..lo];
      assert Take(s, lo + limit) == s[..hi];
      assert s[..lo] + pg == s[..hi];
    }
  }

  /** No two positions of `s` hold the same value. */
  predicate Distinct<T(==)>(s: seq<T>) {
    forall i, j :: 0 <= i < j < |s| ==> s[i] != s[j]
  }

  lemma DistinctAt<T>(s: seq<T>, i: nat, j: nat)
    requires Distinct(s) && i < |s| && j < |s| && i != j
    ensures s[i] != s[j]
  {
    if j < i {
      assert s[j] != s[i];
    }
  }

  /** Positions on two different pages of the same size differ. */
  lemma PagePositionsDiffer(p: nat, q: nat, limit: nat, i: nat, j: nat)
    requires p >= 1 && q >= 1 && p != q && i < limit && j < limit
    ensures (p - 1) * limit + i != (q - 1) * limit + j
  {
    MulStep(p, limit);
    MulStep(q, limit);
    if p < q {
      MulMono(p, q - 1, limit);
    } else {
      MulMono(q, p - 1, limit);
    }
  }

  /** Where the `i`-th element of a page sits in the collection. */
  lemma PageAt<T>(s: seq<T>, page: nat, limit: nat, i: nat)
    requires page >= 1 && limit >= 1 && i < |Page(s, page, limit)|
    ensures (page - 1) * limit + i < |s|
    ensures Page(s, page, limit)[i] == s[(page - 1) * limit + i]
  {
  }

  /** Two different pages of a collection without duplicates have no
      element in common. */
  lemma PagesDisjoint<T>(s: seq<T>, p: nat, q: nat, limit: nat, i: nat, j: nat)
    requires p >= 1 && q >= 1 && limit >= 1 && p != q
    requires Distinct(s)
    requires i < |Page(s, p, limit)| && j < |Page(s, q, limit)|
    ensures Page(s, p, limit)[i] != Page(s, q, limit)[j]
  {
    PageAt(s, p, limit, i);
    PageAt(s, q, limit, j);
    PagePositionsDiffer(p, q, limit, i, j);
    MulMono(0, p - 1, limit);
    MulMono(0, q - 1, limit);
    DistinctAt(s, (p - 1) * limit + i, (q - 1) * limit + j);
  }
}

=== FILE: sorting.dfy ===
/** The `$sort` stage on one field: values compare as MongoDB compares
    them within one field (numbers and dates numerically, strings by code
    point, booleans with `false` first, a missing field before any value),
    in ascending (`1`) or descending (`-1`) direction. MongoDB's sort is not
    stable; the model fixes one order among equal keys, and its contracts
    promise only sortedness and permutation, which every order the
    database may choose also satisfies. */
module Sorting {
  import Seqs

  /** The value a document holds in the sort field. */
  datatype SortValue = Missing | Num(n: int) | Text(t: string) | Flag(b: bool)

  datatype Direction = Asc | Desc

  /** String order by code point, a prefix first. */
  predicate LexLe(a: string, b: string) {
    if |a| == 0 then true
    else if |b| == 0 then false
    else if a[0] != b[0] then a[0] < b[0]
    else LexLe(a[1..], b[1..])
  }

  lemma {:induction false} LexLeTotal(a: string, b: string)
    ensures LexLe(a, b) || LexLe(b, a)
  {
    if |a| > 0 && |b| > 0 && a[0] == b[0] {
      LexLeTotal(a[1..], b[1..]);
    }
  }

  lemma {:induction false} LexLeTransitive(a: string, b: string, c: string)
    requires LexLe(a, b) && LexLe(b, c)
    ensures LexLe(a, c)
  {
    if |a| > 0 && |b| > 0 && |c| > 0 && a[0] == b[0] && b[0] == c[0] {
      LexLeTransitive(a[1..], b[1..], c[1..]);
    }
  }

  function Rank(v: SortValue): nat {
    match v
    case Missing => 0
    case Num(_) => 1
    case Text(_) => 2
    case Flag(_) => 3
  }

  /** `a` may come before `b` in ascending order. */
  predicate Le(a: SortValue, b: SortValue) {
    if Rank(a) != Rank(b) then Rank(a) < Rank(b)
    else match (a, b)
      case (Num(x), Num(y)) => x <= y
      case (Text(x), Text(y)) => LexLe(x, y)
      case (Flag(x), Flag(y)) => !x || y
      case _ => true
  }

  /** `Le` is a total preorder: any two values compare, and comparisons
      chain. */
  lemma LeTotalPreorder(a: SortValue, b: SortValue, c: SortValue)
    ensures Le(a, b) || Le(b, a)
    ensures Le(a, b) && Le(b, c) ==> Le(a, c)
  {
    if a.Text? && b.Text? {
      LexLeTotal(a.t, b.t);
    }
    if Le(a, b) && Le(b, c) && a.Text? && b.Text? && c.Text? {
      LexLeTransitive(a.t, b.t, c.t);
    }
  }

  /** `a` may come before `b` in direction `d`. */
  predicate InOrder(a: SortValue, b: SortValue, d: Direction) {
    if d == Asc then Le(a, b) else Le(b, a)
  }

  lemma InOrderTotalPreorder(a: SortValue, b: SortValue, c: SortValue, d: Direction)
    ensures InOrder(a, b, d) || InOrder(b, a, d)
    ensures InOrder(a, b, d) && InOrder(b, c, d) ==> InOrder(a, c, d)
  {
    LeTotalPreorder(a, b, c);
    LeTotalPreorder(c, b, a);
  }

  /** Every earlier element comes before every later one in direction
      `d`. */
  ghost predicate Sorted<T>(s: seq<T>, key: T -> SortValue, d: Direction) {
    forall i, j :: 0 <= i < j < |s| ==> InOrder(key(s[i]), key(s[j]), d)
  }

  /** Insert `x` into the sorted `s` before the first element it may
      precede. */
  function Insert<T>(x: T, s: seq<T>, key: T -> SortValue, d: Direction): (r: seq<T>)
    requires Sorted(s, key, d)
    ensures Sorted(r, key, d)
    ensures multiset(r) == multiset(s) + multiset{x}
    ensures |r| == |s| + 1
  {
    if |s| == 0 then [x]
    else if InOrder(key(x), key(s[0]), d) then
      InsertFrontSorted(x, s, key, d);
      [x] + s
    else
      var rest := Insert(x, s[1..], key, d);
      InsertBehindSorted(x, s, rest, key, d);
      assert s == [s[0]] + s[1..];
      [s[0]] + rest
  }

  lemma InsertFrontSorted<T>(x: T, s: seq<T>, key: T -> SortValue, d: Direction)
    requires Sorted(s, key, d) && |s| > 0 && InOrder(key(x), key(s[0]), d)
    ensures Sorted([x] + s, key, d)
  {
    var r := [x] + s;
    forall i, j | 0 <= i < j < |r|
      ensures InOrder(key(r[i]), key(r[j]), d)
    {
      if i == 0 && j > 1 {
        InOrderTotalPreorder(key(x), key(s[0]), key(s[j - 1]), d);
      }
    }
  }

  lemma InsertBehindSorted<T>(x: T, s: seq<T>, rest: seq<T>, key: T -> SortValue, d: Direction)
    requires Sorted(s, key, d) && |s| > 0 && !InOrder(key(x), key(s[0]), d)
    requires Sorted(rest, key, d) && multiset(rest) == multiset(s[1..]) + multiset{x}
    ensures Sorted([s[0]] + rest, key, d)
  {
    var r := [s[0]] + rest;
    forall i, j | 0 <= i < j < |r|
      ensures InOrder(key(r[i]), key(r[j]), d)
    {
      if i == 0 {
        var y := rest[j - 1];
        assert y in multiset(rest);
        if y == x {
          InOrderTotalPreorder(key(x), key(s[0]), key(x), d);
        } else {
          assert y in multiset(s[1..]);
          var k :| 0 <= k < |s[1..]| && s[1..][k] == y;
          assert s[k + 1] == y;
        }
      }
    }
  }

  /** The elements of `s` rearranged in direction `d` of `key`: the
      result is sorted and holds exactly the elements of `s`. */
  function SortBy<T>(s: seq<T>, key: T -> SortValue, d: Direction): (r: seq<T>)
    ensures Sorted(r, key, d)
    ensures multiset(r) == multiset(s)
    ensures |r| == |s|
  {
    if |s| == 0 then []
    else
      assert s == [s[0]] + s[1..];
      Insert(s[0], SortBy(s[1..], key, d), key, d)
  }

  /** Keeping only the elements that pass a filter keeps a sorted
      sequence sorted. */
  lemma {:induction false} SortedFilter<T>(s: seq<T>, p: T -> bool, key: T -> SortValue, d: Direction)
    requires Sorted(s, key, d)
    ensures Sorted(Seqs.Filter(s, p), key, d)
  {
    if |s| > 0 {
      SortedFilter(s[1..], p, key, d);
      var rest := Seqs.Filter(s[1..], p);
      Seqs.FilterMembers(s[1..], p);
      if p(s[0]) {
        var r := [s[0]] + rest;
        forall i, j | 0 <= i < j < |r|
          ensures InOrder(key(r[i]), key(r[j]), d)
        {
          if i == 0 {
            var k :| 0 <= k < |s[1..]| && s[1..][k] == rest[j - 1];
            assert s[k + 1] == r[j];
          }
        }
      }
    }
  }
}

=== FILE: subscriptions.dfy ===
/** The subscription handlers (`src/controllers/subscription.controller.js`):
    the subscribe toggle and the two edge listings. */
module Subscriptions {
  import opened Outcomes
  import opened Records
  import opened JsText
  import Seqs

  /** `e` is the edge `subscriber -> channel`, the filter of `findOne` and
      `deleteOne`. */
  predicate IsEdge(e: Subscription, subscriber: Id, channel: Id) {
    e.subscriber == subscriber && e.channel == channel
  }

  function EdgeKey(subscriber: Id, channel: Id): Subscription -> bool {
    (e: Subscription) => IsEdge(e, subscriber, channel)
  }

  function OtherEdges(subscriber: Id, channel: Id): Subscription -> bool {
    (e: Subscription) => !IsEdge(e, subscriber, channel)
  }

  /** The edges into `channel` (`$match: { channel }`). */
  function IntoChannel(channel: Id): Subscription -> bool {
    (e: Subscription) => e.channel == channel
  }

  /** The edges out of `subscriber` (`$match: { subscriber }`). */
  function FromSubscriber(subscriber: Id): Subscription -> bool {
    (e: Subscription) => e.subscriber == subscriber
  }

  function EdgeCount(subs: seq<Subscription>, subscriber: Id, channel: Id): nat {
    Seqs.Count(subs, EdgeKey(subscriber, channel))
  }

  predicate IsSubscribed(subs: seq<Subscription>, subscriber: Id, channel: Id) {
    EdgeCount(subs, subscriber, channel) > 0
  }

  /** How many edges point into `channel`: its subscriber count. */
  function SubscriberCount(subs: seq<Subscription>, channel: Id): nat {
    Seqs.Count(subs, IntoChannel(channel))
  }

  /** An edge is a presence bit: no pair is stored twice. */
  ghost predicate AtMostOneEdge(subs: seq<Subscription>) {
    forall subscriber, channel :: EdgeCount(subs, subscriber, channel) <= 1
  }

  /** The message the toggle answers with. */
  datatype SubState = Subscribed | Unsubscribed

  /** `toggleSubscription` for the signed-in `user` on `channelId`. A
      malformed channel id, then a malformed user id, is a 400 that leaves
      the store alone. Otherwise an existing edge is deleted and
      "unsubscribed" reported, or the edge is created and "subscribed"
      reported; every other edge and collection is untouched. Nothing
      stops a user subscribing to themself. */
  function ToggleSubscription(db: Db, user: Id, channelId: Id): (out: Reply<SubState>)
    ensures !IsValidObjectId(channelId) || !IsValidObjectId(user) ==> out == Reply(Err(400), db)
    ensures IsValidObjectId(channelId) && IsValidObjectId(user) ==>
              out.res == Ok(200, if IsSubscribed(db.subscriptions, user, channelId) then Unsubscribed else Subscribed)
    ensures IsValidObjectId(channelId) && IsValidObjectId(user) && IsSubscribed(db.subscriptions, user, channelId) ==>
              && EdgeCount(out.db.subscriptions, user, channelId) == EdgeCount(db.subscriptions, user, channelId) - 1
              && |out.db.subscriptions| == |db.subscriptions| - 1
    ensures IsValidObjectId(channelId) && IsValidObjectId(user) && !IsSubscribed(db.subscriptions, user, channelId) ==>
              out.db.subscriptions == db.subscriptions + [Subscription(user, channelId)]
    ensures Seqs.Filter(out.db.subscriptions, OtherEdges(user, channelId)) == Seqs.Filter(db.subscriptions, OtherEdges(user, channelId))
    ensures out.db == db.(subscriptions := out.db.subscriptions)
  {
    if !IsValidObjectId(channelId) then Reply(Err(400), db)
    else if !IsValidObjectId(user) then Reply(Err(400), db)
    else
      var edge := Subscription(user, channelId);
      var r := Seqs.Toggle(db.subscriptions, EdgeKey(user, channelId), edge);
      Seqs.ToggleKeepsOthers(db.subscriptions, EdgeKey(user, channelId), edge, OtherEdges(user, channelId));
      Reply(Ok(200, if r.removed then Unsubscribed else Subscribed), db.(subscriptions := r.store))
  }

  /** A toggle moves the channel's subscriber count by exactly one: down
      when it unsubscribes, up when it subscribes. */
  lemma ToggleMovesSubscriberCount(db: Db, user: Id, channelId: Id)
    requires IsValidObjectId(channelId) && IsValidObjectId(user)
    ensures var after := ToggleSubscription(db, user, channelId).db.subscriptions;
            SubscriberCount(after, channelId)
            == SubscriberCount(db.subscriptions, channelId) + (if IsSubscribed(db.subscriptions, user, channelId) then -1 else 1)
  {
    var s := db.subscriptions;
    var r := Seqs.Toggle(s, EdgeKey(user, channelId), Subscription(user, channelId));
    if r.removed {
      var i :| 0 <= i < |s| && EdgeKey(user, channelId)(s[i]) && r.store == Seqs.RemoveAt(s, i);
      Seqs.RemoveAtCount(s, i, IntoChannel(channelId));
    } else {
      Seqs.AppendEffect(s, Subscription(user, channelId), IntoChannel(channelId));
    }
  }

  /** Two toggles of the same pair restore every channel's subscriber
      count, provided no pair was stored twice. */
  lemma ToggleTwiceRestoresCount(db: Db, user: Id, channelId: Id, other: Id)
    requires IsValidObjectId(channelId) && IsValidObjectId(user)
    requires AtMostOneEdge(db.subscriptions)
    ensures var twice := ToggleSubscription(ToggleSubscription(db, user, channelId).db, user, channelId).db;
            SubscriberCount(twice.subscriptions, other) == SubscriberCount(db.subscriptions, other)
  {
    var once := ToggleSubscription(db, user, channelId).db;
    ToggleFlipsEdge(db, user, channelId);
    if other == channelId {
      ToggleMovesSubscriberCount(db, user, channelId);
      ToggleMovesSubscriberCount(once, user, channelId);
    } else {
      ToggleKeepsOtherChannels(db, user, channelId, other);
      ToggleKeepsOtherChannels(once, user, channelId, other);
    }
  }

  /** With at most one edge per pair, a toggle flips whether the pair is
      subscribed. */
  lemma ToggleFlipsEdge(db: Db, user: Id, channelId: Id)
    requires IsValidObjectId(channelId) && IsValidObjectId(user)
    requires AtMostOneEdge(db.subscriptions)
    ensures IsSubscribed(ToggleSubscription(db, user, channelId).db.subscriptions, user, channelId)
            == !IsSubscribed(db.subscriptions, user, channelId)
  {
    var once := ToggleSubscription(db, user, channelId).db;
    assert EdgeCount(db.subscriptions, user, channelId) <= 1;
    if !IsSubscribed(db.subscriptions, user, channelId) {
      Seqs.AppendEffect(db.subscriptions, Subscription(user, channelId), EdgeKey(user, channelId));
    }
  }

  /** A toggle leaves the subscriber count of every other channel alone. */
  lemma ToggleKeepsOtherChannels(db: Db, user: Id, channelId: Id, other: Id)
    requires other != channelId
    ensures SubscriberCount(ToggleSubscription(db, user, channelId).db.subscriptions, other)
            == SubscriberCount(db.subscriptions, other)
  {
    if IsValidObjectId(channelId) && IsValidObjectId(user) {
      Seqs.ToggleKeepsOthers(db.subscriptions, EdgeKey(user, channelId), Subscription(user, channelId), IntoChannel(other));
    }
  }

  /** Toggling an absent edge twice gives back exactly the store it
      started from. */
  lemma ToggleTwiceFromUnsubscribed(db: Db, user: Id, channelId: Id)
    requires IsValidObjectId(channelId) && IsValidObjectId(user)
    requires !IsSubscribed(db.subscriptions, user, channelId)
    ensures ToggleSubscription(db, user, channelId).res == Ok(200, Subscribed)
    ensures ToggleSubscription(ToggleSubscription(db, user, channelId).db, user, channelId) == Reply(Ok(200, Unsubscribed), db)
  {
    Seqs.ToggleTwiceFromAbsent(db.subscriptions, EdgeKey(user, channelId), Subscription(user, channelId));
  }

  /** Toggling a present edge twice, when no pair is stored twice, gives
      back the same edges (the re-created one now last). */
  lemma ToggleTwiceFromSubscribed(db: Db, user: Id, channelId: Id)
    requires IsValidObjectId(channelId) && IsValidObjectId(user)
    requires IsSubscribed(db.subscriptions, user, channelId) && AtMostOneEdge(db.subscriptions)
    ensures ToggleSubscription(db, user, channelId).res == Ok(200, Unsubscribed)
    ensures ToggleSubscription(ToggleSubscription(db, user, channelId).db, user, channelId).res == Ok(200, Subscribed)
    ensures multiset(ToggleSubscription(ToggleSubscription(db, user, channelId).db, user, channelId).db.subscriptions)
            == multiset(db.subscriptions)
  {
    assert EdgeCount(db.subscriptions, user, channelId) <= 1;
    Seqs.ToggleTwiceFromPresent(db.subscriptions, EdgeKey(user, channelId), Subscription(user, channelId));
  }

  /** A toggle keeps every pair stored at most once. */
  lemma TogglePreservesAtMostOne(db: Db, user: Id, channelId: Id)
    requires AtMostOneEdge(db.subscriptions)
    ensures AtMostOneEdge(ToggleSubscription(db, user, channelId).db.subscriptions)
  {
    if IsValidObjectId(channelId) && IsValidObjectId(user) {
      var s := db.subscriptions;
      var r := Seqs.Toggle(s, EdgeKey(user, channelId), Subscription(user, channelId));
      forall sub, ch
        ensures EdgeCount(r.store, sub, ch) <= 1
      {
        assert EdgeCount(s, sub, ch) <= 1;
        if r.removed {
          var i :| 0 <= i < |s| && EdgeKey(user, channelId)(s[i]) && r.store == Seqs.RemoveAt(s, i);
          Seqs.RemoveAtCount(s, i, EdgeKey(sub, ch));
        } else {
          Seqs.AppendEffect(s, Subscription(user, channelId), EdgeKey(sub, ch));
        }
      }
    }
  }

  /** Under the at-most-one invariant the reported state is the state the
      store is left in. */
  lemma ToggleReportsNewState(db: Db, user: Id, channelId: Id)
    requires IsValidObjectId(channelId) && IsValidObjectId(user) && AtMostOneEdge(db.subscriptions)
    ensures var out := ToggleSubscription(db, user, channelId);
            out.res.value == Subscribed <==> IsSubscribed(out.db.subscriptions, user, channelId)
  {
    assert EdgeCount(db.subscriptions, user, channelId) <= 1;
    if !IsSubscribed(db.subscriptions, user, channelId) {
      Seqs.AppendEffect(db.subscriptions, Subscription(user, channelId), EdgeKey(user, channelId));
    }
  }

  /** A user can subscribe to their own channel: the self edge is
      created. */
  lemma SelfSubscriptionAllowed(db: Db, user: Id)
    requires IsValidObjectId(user) && !IsSubscribed(db.subscriptions, user, user)
    ensures ToggleSubscription(db, user, user).res == Ok(200, Subscribed)
    ensures Subscription(user, user) in ToggleSubscription(db, user, user).db.subscriptions
  {
    var after := ToggleSubscription(db, user, user).db.subscriptions;
    assert after[|after| - 1] == Subscription(user, user);
  }

  /** `getUserChannelSubscribers`: the edges into the channel whose
      subscriber is an existing user, in store order, each with the
      subscriber's profile; 400 for a malformed id. */
  function GetUserChannelSubscribers(db: Db, channelId: Id): (r: Res<seq<Joined<Subscription>>>)
    ensures !IsValidObjectId(channelId) <==> r == Err(400)
    ensures r.Ok? ==> r.status == 200
    ensures r.Ok? ==> Items(r.value) == Seqs.Filter(Seqs.Filter(db.subscriptions, IntoChannel(channelId)), Resolves(db.users, Subscriber))
    ensures r.Ok? ==> forall i :: 0 <= i < |r.value| ==>
              && r.value[i].item.channel == channelId
              && FindUser(db.users, r.value[i].item.subscriber).Some?
              && r.value[i].owner == ProfileOf(FindUser(db.users, r.value[i].item.subscriber).value)
  {
    if !IsValidObjectId(channelId) then Err(400)
    else
      var edges := Seqs.Filter(db.subscriptions, IntoChannel(channelId));
      var rows := JoinUsers(edges, Subscriber, db.users);
      JoinKeeps(edges, Subscriber, db.users, IntoChannel(channelId));
      Ok(200, rows)
  }

  /** `getSubscribedChannels`: the edges out of the subscriber whose
      channel is an existing user, in store order, each with the channel's
      profile; 400 for a malformed id. */
  function GetSubscribedChannels(db: Db, subscriberId: Id): (r: Res<seq<Joined<Subscription>>>)
    ensures !IsValidObjectId(subscriberId) <==> r == Err(400)
    ensures r.Ok? ==> r.status == 200
    ensures r.Ok? ==> Items(r.value) == Seqs.Filter(Seqs.Filter(db.subscriptions, FromSubscriber(subscriberId)), Resolves(db.users, Channel))
    ensures r.Ok? ==> forall i :: 0 <= i < |r.value| ==>
              && r.value[i].item.subscriber == subscriberId
              && FindUser(db.users, r.value[i].item.channel).Some?
              && r.value[i].owner == ProfileOf(FindUser(db.users, r.value[i].item.channel).value)
  {
    if !IsValidObjectId(subscriberId) then Err(400)
    else
      var edges := Seqs.Filter(db.subscriptions, FromSubscriber(subscriberId));
      var rows := JoinUsers(edges, Channel, db.users);
      JoinKeeps(edges, Channel, db.users, FromSubscriber(subscriberId));
      Ok(200, rows)
  }

  /** When every subscriber of the channel is an existing user, the list
      has one row per edge into the channel: its length is the subscriber
      count. */
  lemma SubscriberListMatchesCount(db: Db, channelId: Id)
    requires IsValidObjectId(channelId)
    requires forall i :: 0 <= i < |db.subscriptions| && db.subscriptions[i].channel == channelId
               ==> FindUser(db.users, db.subscriptions[i].subscriber).Some?
    ensures |GetUserChannelSubscribers(db, channelId).value| == SubscriberCount(db.subscriptions, channelId)
  {
    var edges := Seqs.Filter(db.subscriptions, IntoChannel(channelId));
    Seqs.FilterMembers(db.subscriptions, IntoChannel(channelId));
    forall i | 0 <= i < |edges|
      ensures FindUser(db.users, edges[i].subscriber).Some?
    {
      var k :| 0 <= k < |db.subscriptions| && db.subscriptions[k] == edges[i];
    }
    JoinKeepsAllResolved(edges, Subscriber, db.users);
  }

  /** A channel that is an existing user is listed among the subscriber's
      channels exactly when the subscriber is subscribed to it: with
      `ToggleReportsNewState`, a toggle by the caller adds the channel's
      row when it reports "subscribed" and removes it otherwise. */
  lemma SubscribedChannelListed(db: Db, subscriberId: Id, channel: Id)
    requires IsValidObjectId(subscriberId) && FindUser(db.users, channel).Some?
    ensures var r := GetSubscribedChannels(db, subscriberId);
            IsSubscribed(db.subscriptions, subscriberId, channel)
            <==> exists i :: 0 <= i < |r.value| && r.value[i].item.channel == channel
  {
    var r := GetSubscribedChannels(db, subscriberId);
    EdgeStoredIffSubscribed(db.subscriptions, subscriberId, channel);
    ListedIffStored(db.subscriptions, db.users, subscriberId, channel, Items(r.value));
    RowsNameChannel(r.value, subscriberId, channel);
  }

  /** Rows that all leave `subscriber` hold the edge to `channel` exactly
      when one of them names that channel. */
  lemma {:induction false} RowsNameChannel(rows: seq<Joined<Subscription>>, subscriber: Id, channel: Id)
    requires forall i :: 0 <= i < |rows| ==> rows[i].item.subscriber == subscriber
    ensures Subscription(subscriber, channel) in Items(rows)
            <==> exists i :: 0 <= i < |rows| && rows[i].item.channel == channel
  {
    var items := Items(rows);
    if Subscription(subscriber, channel) in items {
      var i :| 0 <= i < |items| && items[i] == Subscription(subscriber, channel);
      assert rows[i].item.channel == channel;
    }
    if exists i :: 0 <= i < |rows| && rows[i].item.channel == channel {
      var i :| 0 <= i < |rows| && rows[i].item.channel == channel;
      assert items[i] == Subscription(subscriber, channel);
    }
  }

  /** The edge into an existing channel is among the joined edges out of
      its subscriber exactly when it is stored. */
  lemma ListedIffStored(subs: seq<Subscription>, users: seq<User>, subscriber: Id, channel: Id, items: seq<Subscription>)
    requires FindUser(users, channel).Some?
    requires items == Seqs.Filter(Seqs.Filter(subs, FromSubscriber(subscriber)), Resolves(users, Channel))
    ensures Subscription(subscriber, channel) in items <==> Subscription(subscriber, channel) in subs
  {
    var e := Subscription(subscriber, channel);
    assert Channel(e) == channel;
    assert FromSubscriber(subscriber)(e) && Resolves(users, Channel)(e);
    Seqs.InFilter(subs, FromSubscriber(subscriber), e);
    Seqs.InFilter(Seqs.Filter(subs, FromSubscriber(subscriber)), Resolves(users, Channel), e);
  }

  /** The subscriber is subscribed exactly when the edge record is
      stored. */
  lemma EdgeStoredIffSubscribed(subs: seq<Subscription>, subscriber: Id, channel: Id)
    ensures IsSubscribed(subs, subscriber, channel) <==> Subscription(subscriber, channel) in subs
  {
    if Subscription(subscriber, channel) in subs {
      var k :| 0 <= k < |subs| && subs[k] == Subscription(subscriber, channel);
      assert EdgeKey(subscriber, channel)(subs[k]);
    }
  }

  /** When every channel the subscriber follows is an existing user, the
      list has one row per edge out of the subscriber. */
  lemma SubscribedListMatchesCount(db: Db, subscriberId: Id)
    requires IsValidObjectId(subscriberId)
    requires forall i :: 0 <= i < |db.subscriptions| && db.subscriptions[i].subscriber == subscriberId
               ==> FindUser(db.users, db.subscriptions[i].channel).Some?
    ensures |GetSubscribedChannels(db, subscriberId).value| == Seqs.Count(db.subscriptions, FromSubscriber(subscriberId))
  {
    var edges := Seqs.Filter(db.subscriptions, FromSubscriber(subscriberId));
    Seqs.FilterMembers(db.subscriptions, FromSubscriber(subscriberId));
    forall i | 0 <= i < |edges|
      ensures FindUser(db.users, edges[i].channel).Some?
    {
      var k :| 0 <= k < |db.subscriptions| && db.subscriptions[k] == edges[i];
    }
    JoinKeepsAllResolved(edges, Channel, db.users);
  }
}

=== FILE: tweets.dfy ===
/** The tweet handlers (`src/controllers/tweet.controller.js`): create,
    list one user's tweets, update, delete, and the global feed. */
module Tweets {
  import opened Outcomes
  import opened Records
  import opened JsText
  import Seqs
  import Sorting

  /** The tweets of `user` (`$match: { owner }`). */
  function TweetBy(user: Id): Tweet -> bool {
    (t: Tweet) => t.owner == user
  }

  /** `createTweet` for the signed-in `user`. A user id that is not an
      ObjectId and a falsy `content` (absent or empty) are 400s; white
      space alone passes. Otherwise the tweet is appended under the fresh
      id with both timestamps at the current time, and answered with
      201. */
  function CreateTweet(db: Db, user: Id, content: Option<string>, freshId: Id, now: int): (out: Reply<Tweet>)
    ensures !IsValidObjectId(user) || Falsy(content) ==> out == Reply(Err(400), db)
    ensures out.res.Ok? <==> IsValidObjectId(user) && content.Some? && content.value != ""
    ensures out.res.Err? ==> out.db == db
    ensures out.res.Ok? ==> && out.res.status == 201
                            && out.res.value == Tweet(freshId, content.value, user, now, now)
                            && out.db == db.(tweets := db.tweets + [out.res.value])
  {
    if !IsValidObjectId(user) then Reply(Err(400), db)
    else if Falsy(content) then Reply(Err(400), db)
    else
      var t := Tweet(freshId, content.value, user, now, now);
      Reply(Ok(201, t), db.(tweets := db.tweets + [t]))
  }

  /** `getUserTweets`. An id that is not an ObjectId makes the `ObjectId`
      constructor throw (500). Otherwise the user's tweets in store order,
      each with the user's profile; none at all when the user does not
      exist, since `$unwind` drops the unmatched rows. */
  function GetUserTweets(db: Db, userId: Id): (out: Res<seq<Joined<Tweet>>>)
    ensures out.Err? <==> !IsValidObjectId(userId)
    ensures out.Err? ==> out.status == 500
    ensures out.Ok? ==> && out.status == 200
                        && Items(out.value) == Seqs.Filter(Seqs.Filter(db.tweets, TweetBy(userId)), Resolves(db.users, TweetOwner))
                        && (forall i :: 0 <= i < |out.value| ==> out.value[i].item.owner == userId)
  {
    if !IsValidObjectId(userId) then Err(500)
    else
      var mine := Seqs.Filter(db.tweets, TweetBy(userId));
      JoinKeeps(mine, TweetOwner, db.users, TweetBy(userId));
      Ok(200, JoinUsers(mine, TweetOwner, db.users))
  }

  /** For an existing user the listing is exactly the user's tweets; for
      a missing user it is empty. */
  lemma UserTweetsAllOrNothing(db: Db, userId: Id)
    requires IsValidObjectId(userId)
    ensures FindUser(db.users, userId).Some? ==>
              Items(GetUserTweets(db, userId).value) == Seqs.Filter(db.tweets, TweetBy(userId))
    ensures FindUser(db.users, userId).None? ==> GetUserTweets(db, userId).value == []
  {
    var mine := Seqs.Filter(db.tweets, TweetBy(userId));
    assert forall i :: 0 <= i < |mine| ==> TweetOwner(mine[i]) == userId;
    if FindUser(db.users, userId).Some? {
      JoinKeepsAllResolved(mine, TweetOwner, db.users);
    } else {
      assert Seqs.Count(mine, Resolves(db.users, TweetOwner)) == 0 by {
        NoneResolve(mine, db.users, userId);
      }
    }
  }

  /** Tweets all owned by a user who does not exist: none of them
      resolves. */
  lemma {:induction false} NoneResolve(tweets: seq<Tweet>, users: seq<User>, userId: Id)
    requires FindUser(users, userId).None?
    requires forall i :: 0 <= i < |tweets| ==> tweets[i].owner == userId
    ensures Seqs.Count(tweets, Resolves(users, TweetOwner)) == 0
  {
    if |tweets| > 0 {
      assert TweetOwner(tweets[0]) == userId;
      NoneResolve(tweets[1..], users, userId);
    }
  }

  /** `updateTweet` at time `now`. A falsy `content` and an id that is
      not an ObjectId are 400s, an unknown id a 404. Otherwise the content
      is written and the update stamps `updatedAt` with `now`; then the
      tweet is re-read joined with its owner: when the owner no longer
      exists the answer is a 500, although the write has happened. */
  function UpdateTweet(db: Db, tweetId: Id, content: Option<string>, now: int): (out: Reply<Joined<Tweet>>)
    ensures Falsy(content) || !IsValidObjectId(tweetId) ==> out == Reply(Err(400), db)
    ensures !Falsy(content) && IsValidObjectId(tweetId) && TweetIndex(db.tweets, tweetId).None?
            ==> out == Reply(Err(404), db)
    ensures !Falsy(content) && IsValidObjectId(tweetId) && TweetIndex(db.tweets, tweetId).Some? ==>
              var i := TweetIndex(db.tweets, tweetId).value;
              var t := db.tweets[i].(content := content.value, updatedAt := now);
              && out.db == db.(tweets := db.tweets[i := t])
              && (out.res.Ok? <==> FindUser(db.users, t.owner).Some?)
              && (out.res.Err? ==> out.res.status == 500)
              && (out.res.Ok? ==> out.res == Ok(200, Joined(t, ProfileOf(FindUser(db.users, t.owner).value))))
  {
    if Falsy(content) || !IsValidObjectId(tweetId) then Reply(Err(400), db)
    else match TweetIndex(db.tweets, tweetId)
      case None => Reply(Err(404), db)
      case Some(i) =>
        var t := db.tweets[i].(content := content.value, updatedAt := now);
        var db' := db.(tweets := ReplaceAt(db.tweets, i, t));
        match FindUser(db.users, t.owner)
        case None => Reply(Err(500), db')
        case Some(u) => Reply(Ok(200, Joined(t, ProfileOf(u))), db')
  }

  /** An update touches the content and the update time of the one tweet
      it names: every other tweet, the id, owner and creation time of that
      tweet, and every other collection stay as they were. */
  lemma UpdateTweetKeepsRest(db: Db, tweetId: Id, content: Option<string>, now: int)
    ensures var out := UpdateTweet(db, tweetId, content, now);
            && out.db.users == db.users && out.db.videos == db.videos && out.db.comments == db.comments
            && out.db.likes == db.likes && out.db.subscriptions == db.subscriptions
            && |out.db.tweets| == |db.tweets|
            && (forall j :: 0 <= j < |db.tweets| ==>
                  && out.db.tweets[j].id == db.tweets[j].id
                  && out.db.tweets[j].owner == db.tweets[j].owner
                  && out.db.tweets[j].createdAt == db.tweets[j].createdAt
                  && (out.db.tweets[j] != db.tweets[j] ==> out.db.tweets[j].updatedAt == now)
                  && (db.tweets[j].id != tweetId ==> out.db.tweets[j] == db.tweets[j]))
  {
    var out := UpdateTweet(db, tweetId, content, now);
    if out.db != db {
      var i := TweetIndex(db.tweets, tweetId).value;
      forall j | 0 <= j < |db.tweets| && db.tweets[j].id != tweetId
        ensures out.db.tweets[j] == db.tweets[j]
      {
        assert j != i;
      }
    }
  }

  /** Repeating an update changes nothing more than the update time: two
      updates with the same content answer and leave the store as one
      update at the later time does. */
  lemma UpdateTweetIdempotent(db: Db, tweetId: Id, content: Option<string>, now: int, later: int)
    ensures var once := UpdateTweet(db, tweetId, content, now);
            UpdateTweet(once.db, tweetId, content, later) == UpdateTweet(db, tweetId, content, later)
  {
    var once := UpdateTweet(db, tweetId, content, now);
    if !Falsy(content) && IsValidObjectId(tweetId) && TweetIndex(db.tweets, tweetId).Some? {
      var i := TweetIndex(db.tweets, tweetId).value;
      var t := db.tweets[i].(content := content.value, updatedAt := now);
      var t' := db.tweets[i].(content := content.value, updatedAt := later);
      ReplaceKeepsTweetIndex(db.tweets, tweetId, t);
      assert once.db.tweets[i].(content := content.value, updatedAt := later) == t';
      assert ReplaceAt(once.db.tweets, i, t') == ReplaceAt(db.tweets, i, t');
    }
  }

  /** Replacing the tweet found for an id by one with the same id keeps it
      the one found. */
  lemma ReplaceKeepsTweetIndex(tweets: seq<Tweet>, id: Id, t: Tweet)
    requires TweetIndex(tweets, id).Some? && t.id == id
    ensures var i := TweetIndex(tweets, id).value;
            TweetIndex(ReplaceAt(tweets, i, t), id) == Some(i)
  {
    var i := TweetIndex(tweets, id).value;
    var after := ReplaceAt(tweets, i, t);
    forall j | 0 <= j < i
      ensures !HasTweetId(id)(after[j])
    {
      assert after[j] == tweets[j];
    }
    Seqs.FirstIndexAt(after, HasTweetId(id), i);
  }

  /** `deleteTweet`. An id that is not an ObjectId is a 400; an unknown id
      is reported as a 500. Otherwise the tweet with that id is removed. */
  function DeleteTweet(db: Db, tweetId: Id): (out: Reply<()>)
    ensures !IsValidObjectId(tweetId) ==> out == Reply(Err(400), db)
    ensures IsValidObjectId(tweetId) && TweetIndex(db.tweets, tweetId).None? ==> out == Reply(Err(500), db)
    ensures out.res.Ok? <==> IsValidObjectId(tweetId) && TweetIndex(db.tweets, tweetId).Some?
    ensures out.res.Err? ==> out.db == db
    ensures out.res.Ok? ==>
              && out.res.status == 200
              && TweetIndex(db.tweets, tweetId).Some?
              && out.db == db.(tweets := Seqs.RemoveAt(db.tweets, TweetIndex(db.tweets, tweetId).value))
              && |out.db.tweets| == |db.tweets| - 1
  {
    if !IsValidObjectId(tweetId) then Reply(Err(400), db)
    else match TweetIndex(db.tweets, tweetId)
      case None => Reply(Err(500), db)
      case Some(i) => Reply(Ok(200, ()), db.(tweets := Seqs.RemoveAt(db.tweets, i)))
  }

  ghost predicate UniqueIds(tweets: seq<Tweet>) {
    forall i, j :: 0 <= i < j < |tweets| ==> tweets[i].id != tweets[j].id
  }

  /** With unique ids, a deleted tweet is gone: deleting it again is the
      not-found 500. */
  lemma DeleteTweetRemovesIt(db: Db, tweetId: Id)
    requires UniqueIds(db.tweets)
    requires DeleteTweet(db, tweetId).res.Ok?
    ensures TweetIndex(DeleteTweet(db, tweetId).db.tweets, tweetId).None?
    ensures DeleteTweet(DeleteTweet(db, tweetId).db, tweetId) == Reply(Err(500), DeleteTweet(db, tweetId).db)
  {
    var i := TweetIndex(db.tweets, tweetId).value;
    var after := DeleteTweet(db, tweetId).db.tweets;
    forall j | 0 <= j < |after|
      ensures after[j].id != tweetId
    {
      if j < i {
        assert after[j] == db.tweets[j];
      } else {
        assert after[j] == db.tweets[j + 1];
      }
    }
  }

  /** Deleting a tweet just created under a fresh id gives back the store
      as it was before. */
  lemma CreateThenDeleteTweet(db: Db, user: Id, content: Option<string>, freshId: Id, now: int)
    requires CreateTweet(db, user, content, freshId, now).res.Ok?
    requires IsValidObjectId(freshId)
    requires TweetIndex(db.tweets, freshId).None?
    ensures DeleteTweet(CreateTweet(db, user, content, freshId, now).db, freshId) == Reply(Ok(200, ()), db)
  {
    var added := CreateTweet(db, user, content, freshId, now).db.tweets;
    var n := |db.tweets|;
    assert added[n].id == freshId;
    forall j | 0 <= j < n
      ensures added[j].id != freshId
    {
      assert added[j] == db.tweets[j];
    }
    Seqs.FirstIndexAt(added, HasTweetId(freshId), n);
    assert Seqs.RemoveAt(added, n) == db.tweets;
  }

  /** The feed's sort key: `createdAt` of the joined tweet. */
  function NewestKey(): Joined<Tweet> -> Sorting.SortValue {
    (r: Joined<Tweet>) => Sorting.Num(r.item.createdAt)
  }

  /** `getAllTweets`: every tweet whose owner exists, with the owner's
      profile, newest first. An empty feed is a 404. */
  function GetAllTweets(db: Db): (out: Res<seq<Joined<Tweet>>>)
    ensures out.Err? <==> Seqs.Count(db.tweets, Resolves(db.users, TweetOwner)) == 0
    ensures out.Err? ==> out.status == 404
    ensures out.Ok? ==>
              && out.status == 200
              && multiset(out.value) == multiset(JoinUsers(db.tweets, TweetOwner, db.users))
              && (forall i, j :: 0 <= i < j < |out.value| ==> out.value[i].item.createdAt >= out.value[j].item.createdAt)
  {
    var joined := JoinUsers(db.tweets, TweetOwner, db.users);
    var rows := Sorting.SortBy(joined, NewestKey(), Sorting.Desc);
    assert |Items(joined)| == |joined|;
    if |rows| == 0 then Err(404)
    else
      NewestFirst(rows);
      Ok(200, rows)
  }

  /** Rows sorted descending on `NewestKey` run from the newest tweet to
      the oldest. */
  lemma NewestFirst(rows: seq<Joined<Tweet>>)
    requires Sorting.Sorted(rows, NewestKey(), Sorting.Desc)
    ensures forall i, j :: 0 <= i < j < |rows| ==> rows[i].item.createdAt >= rows[j].item.createdAt
  {
    forall i, j | 0 <= i < j < |rows|
      ensures rows[i].item.createdAt >= rows[j].item.createdAt
    {
      assert Sorting.InOrder(NewestKey()(rows[i]), NewestKey()(rows[j]), Sorting.Desc);
    }
  }

  /** The feed lists every tweet whose owner exists, with that owner's
      profile, and nothing else. */
  lemma FeedListsResolvedTweets(db: Db, t: Tweet)
    requires GetAllTweets(db).Ok?
    ensures (exists i :: 0 <= i < |GetAllTweets(db).value| && GetAllTweets(db).value[i].item == t)
            <==> t in db.tweets && FindUser(db.users, t.owner).Some?
  {
    var rows := GetAllTweets(db).value;
    var joined := JoinUsers(db.tweets, TweetOwner, db.users);
    Seqs.FilterMembers(db.tweets, Resolves(db.users, TweetOwner));
    if exists i :: 0 <= i < |rows| && rows[i].item == t {
      var i :| 0 <= i < |rows| && rows[i].item == t;
      RearrangedRowFromJoin(db.tweets, db.users, rows, i);
    }
    if t in db.tweets && FindUser(db.users, t.owner).Some? {
      JoinedTweetInRearrangement(db.tweets, db.users, rows, t);
    }
  }

  /** A row of a rearrangement of the join holds a stored tweet whose
      owner exists. */
  lemma RearrangedRowFromJoin(tweets: seq<Tweet>, users: seq<User>, rows: seq<Joined<Tweet>>, i: nat)
    requires multiset(rows) == multiset(JoinUsers(tweets, TweetOwner, users))
    requires i < |rows|
    ensures rows[i].item in tweets && FindUser(users, rows[i].item.owner).Some?
  {
    var joined := JoinUsers(tweets, TweetOwner, users);
    var items := Items(joined);
    Seqs.FilterMembers(tweets, Resolves(users, TweetOwner));
    assert rows[i] in multiset(joined);
    var k :| 0 <= k < |joined| && joined[k] == rows[i];
    assert items[k] == rows[i].item;
    assert items[k] in tweets;
    assert TweetOwner(rows[i].item) == rows[i].item.owner;
  }

  /** A stored tweet whose owner exists is held by some row of any
      rearrangement of the join. */
  lemma JoinedTweetInRearrangement(tweets: seq<Tweet>, users: seq<User>, rows: seq<Joined<Tweet>>, t: Tweet)
    requires multiset(rows) == multiset(JoinUsers(tweets, TweetOwner, users))
    requires t in tweets && FindUser(users, t.owner).Some?
    ensures exists i :: 0 <= i < |rows| && rows[i].item == t
  {
    var joined := JoinUsers(tweets, TweetOwner, users);
    var items := Items(joined);
    var resolves := Resolves(users, TweetOwner);
    Seqs.FilterMembers(tweets, resolves);
    var k :| 0 <= k < |tweets| && tweets[k] == t;
    assert TweetOwner(t) == t.owner;
    assert resolves(tweets[k]);
    var m :| 0 <= m < |items| && items[m] == t;
    assert joined[m] in multiset(rows);
    var i :| 0 <= i < |rows| && rows[i] == joined[m];
    assert rows[i].item == t;
  }
}

=== FILE: users.dfy ===
/** User registration (`src/controllers/user.controller.js`). */
module Users {
  import opened Outcomes
  import opened Records
  import opened JsText

  /** The uploaded files of a multipart request: none at all, or the file
      fields, each the path of its first file, `None` when the field was
      not sent. */
  datatype UserFiles = NoFiles | Files(avatar: Option<string>, coverImage: Option<string>)

  /** A user as the registration answers it: `select("-password
      -refreshToken")` leaves those two out. */
  datatype PublicUser = PublicUser(
    id: Id,
    username: string,
    email: Option<string>,
    fullName: Option<string>,
    avatar: string,
    coverImage: string)

  function PublicOf(u: User): (p: PublicUser)
    ensures p.id == u.id && p.username == u.username && p.email == u.email
    ensures p.fullName == u.fullName && p.avatar == u.avatar && p.coverImage == u.coverImage
  {
    PublicUser(u.id, u.username, u.email, u.fullName, u.avatar, u.coverImage)
  }

  /** Some supplied field is empty after trimming. */
  predicate AnyBlank(username: Option<string>, email: Option<string>, fullName: Option<string>, password: Option<string>) {
    SuppliedButBlank(username) || SuppliedButBlank(email) || SuppliedButBlank(fullName) || SuppliedButBlank(password)
  }

  /** `u` matches `$or: [{ username }, { email }]`: the username exactly as
      sent (not lowered), or the email, where an absent email matches a
      user stored without one. An absent username matches nobody, as
      every stored user has one. */
  predicate Clashes(u: User, username: Option<string>, email: Option<string>) {
    (username.Some? && u.username == username.value) || u.email == email
  }

  predicate Taken(users: seq<User>, username: Option<string>, email: Option<string>) {
    exists i :: 0 <= i < |users| && Clashes(users[i], username, email)
  }

  /** The user record `User.create` stores. */
  function NewUser(freshId: Id, username: string, email: Option<string>, fullName: Option<string>,
                   password: Option<string>, avatar: string, coverImage: string): (u: User)
    ensures u.id == freshId && u.username == ToLower(username) && u.email == email && u.fullName == fullName
    ensures u.password == password && u.refreshToken.None?
    ensures u.avatar == avatar && u.coverImage == coverImage
  {
    User(freshId, ToLower(username), email, fullName, avatar, coverImage, password, None)
  }

  /** What follows the path extraction: a falsy avatar path or a failed
      avatar upload is a 400; an absent username makes `toLowerCase` throw
      (500); otherwise the user is stored with the lowered username, the
      uploaded avatar's URL and the cover's URL, or "" when there is no
      cover or its upload failed. */
  function Store(db: Db, username: Option<string>, email: Option<string>, fullName: Option<string>,
                 password: Option<string>, avatarPath: string, coverPath: Option<string>,
                 upload: string -> Option<Upload>, freshId: Id): (out: Reply<PublicUser>)
    ensures out.res.Err? ==> out.db == db
    ensures out.res.Err? <==> avatarPath == "" || upload(avatarPath).None? || username.None?
    ensures out.res.Err? ==> out.res.status == (if avatarPath == "" || upload(avatarPath).None? then 400 else 500)
    ensures out.res.Ok? ==>
              var cover := if coverPath.Some? && upload(coverPath.value).Some? then upload(coverPath.value).value.url else "";
              var u := NewUser(freshId, username.value, email, fullName, password, upload(avatarPath).value.url, cover);
              && out.res == Ok(201, PublicOf(u))
              && out.db == db.(users := db.users + [u])
  {
    if avatarPath == "" then Reply(Err(400), db)
    else match upload(avatarPath)
      case None => Reply(Err(400), db)
      case Some(avatar) =>
        if username.None? then Reply(Err(500), db)
        else
          var cover := if coverPath.Some? && upload(coverPath.value).Some? then upload(coverPath.value).value.url else "";
          var u := NewUser(freshId, username.value, email, fullName, password, avatar.url, cover);
          Reply(Ok(201, PublicOf(u)), db.(users := db.users + [u]))
  }

  /** `registerUser`, as written. In order: a supplied field that trims to
      "" is a 400; a user matching the username as sent or the email is a
      409; a request without files has no avatar path (400); a file field
      that was not sent, the optional cover image included, makes the path
      lookup throw (500); then `Store`. */
  function RegisterUser(db: Db, username: Option<string>, email: Option<string>, fullName: Option<string>,
                        password: Option<string>, files: UserFiles, upload: string -> Option<Upload>,
                        freshId: Id): (out: Reply<PublicUser>)
    ensures AnyBlank(username, email, fullName, password) ==> out == Reply(Err(400), db)
    ensures !AnyBlank(username, email, fullName, password) && Taken(db.users, username, email) ==> out == Reply(Err(409), db)
    ensures !AnyBlank(username, email, fullName, password) && !Taken(db.users, username, email) ==>
              match files
              case NoFiles => out == Reply(Err(400), db)
              case Files(avatar, cover) =>
                if avatar.None? || cover.None? then out == Reply(Err(500), db)
                else out == Store(db, username, email, fullName, password, avatar.value, cover, upload, freshId)
  {
    if AnyBlank(username, email, fullName, password) then Reply(Err(400), db)
    else if Taken(db.users, username, email) then Reply(Err(409), db)
    else match files
      case NoFiles => Reply(Err(400), db)
      case Files(avatar, cover) =>
        if avatar.None? || cover.None? then Reply(Err(500), db)
        else Store(db, username, email, fullName, password, avatar.value, cover, upload, freshId)
  }

  /** `registerUser` with both file lookups optional (`avatar?.[0]?.path`):
      a missing avatar field is the "avatar file is required" 400, and a
      missing cover image field means no cover. */
  function RegisterUserCorrected(db: Db, username: Option<string>, email: Option<string>, fullName: Option<string>,
                                 password: Option<string>, files: UserFiles, upload: string -> Option<Upload>,
                                 freshId: Id): (out: Reply<PublicUser>)
    ensures files.Files? && files.avatar.Some? && files.coverImage.Some? ==>
              out == RegisterUser(db, username, email, fullName, password, files, upload, freshId)
    ensures (!AnyBlank(username, email, fullName, password) && !Taken(db.users, username, email)
             && (files.NoFiles? || files.avatar.None?)) ==> out == Reply(Err(400), db)
  {
    if AnyBlank(username, email, fullName, password) then Reply(Err(400), db)
    else if Taken(db.users, username, email) then Reply(Err(409), db)
    else match files
      case NoFiles => Reply(Err(400), db)
      case Files(avatar, cover) =>
        if avatar.None? then Reply(Err(400), db)
        else Store(db, username, email, fullName, password, avatar.value, cover, upload, freshId)
  }

  /** As written, a registration that sends an avatar but no cover image
      fails with a 500, although everything it needs is there. */
  lemma MissingCoverFailsAsWritten(db: Db, username: string, email: Option<string>, fullName: Option<string>,
                                   password: Option<string>, avatarPath: string, upload: string -> Option<Upload>,
                                   freshId: Id)
    requires !AnyBlank(Some(username), email, fullName, password) && !Taken(db.users, Some(username), email)
    requires avatarPath != "" && upload(avatarPath).Some?
    ensures RegisterUser(db, Some(username), email, fullName, password, Files(Some(avatarPath), None), upload, freshId)
            == Reply(Err(500), db)
  {
  }

  /** With the corrected lookup the same registration succeeds and stores
      the user without a cover image. */
  lemma MissingCoverAcceptedCorrected(db: Db, username: string, email: Option<string>, fullName: Option<string>,
                                      password: Option<string>, avatarPath: string, upload: string -> Option<Upload>,
                                      freshId: Id)
    requires !AnyBlank(Some(username), email, fullName, password) && !Taken(db.users, Some(username), email)
    requires avatarPath != "" && upload(avatarPath).Some?
    ensures var out := RegisterUserCorrected(db, Some(username), email, fullName, password,
                                             Files(Some(avatarPath), None), upload, freshId);
            && out.res.Ok? && out.res.status == 201
            && out.res.value.coverImage == ""
            && out.res.value.avatar == upload(avatarPath).value.url
            && out.db.users == db.users + [NewUser(freshId, username, email, fullName, password, upload(avatarPath).value.url, "")]
  {
  }

  /** A registered username has no upper-case letter and is the sent one
      lowered; the answer never carries the password. */
  lemma RegisteredUserShape(db: Db, username: Option<string>, email: Option<string>, fullName: Option<string>,
                            password: Option<string>, files: UserFiles, upload: string -> Option<Upload>, freshId: Id)
    requires RegisterUser(db, username, email, fullName, password, files, upload, freshId).res.Ok?
    ensures var out := RegisterUser(db, username, email, fullName, password, files, upload, freshId);
            && username.Some?
            && out.res.value.username == ToLower(username.value)
            && (forall i :: 0 <= i < |out.res.value.username| ==> !IsUpper(out.res.value.username[i]))
            && |out.db.users| == |db.users| + 1
            && out.db.users[|db.users|].id == freshId
            && out.db.users[|db.users|].password == password
            && out.db.users[|db.users|].refreshToken.None?
            && PublicOf(out.db.users[|db.users|]) == out.res.value
  {
    ToLowerProperties(username.value, username.value);
  }

  /** Sending the same registration again is a 409: the stored user
      matches on the email. */
  lemma RegisterTwiceConflicts(db: Db, username: Option<string>, email: Option<string>, fullName: Option<string>,
                               password: Option<string>, files: UserFiles, upload: string -> Option<Upload>,
                               freshId: Id, freshId': Id)
    requires RegisterUser(db, username, email, fullName, password, files, upload, freshId).res.Ok?
    ensures var after := RegisterUser(db, username, email, fullName, password, files, upload, freshId).db;
            RegisterUser(after, username, email, fullName, password, files, upload, freshId') == Reply(Err(409), after)
  {
    var after := RegisterUser(db, username, email, fullName, password, files, upload, freshId).db;
    assert Clashes(after.users[|db.users|], username, email);
  }

  /** The uniqueness test compares the username as sent, while the store
      keeps it lowered: a sent name differing from a stored one only in
      letter case passes, and two users then share one username. */
  lemma CaseVariantSharesUsername(db: Db, username: string, email: Option<string>, fullName: Option<string>,
                                  password: Option<string>, files: UserFiles, upload: string -> Option<Upload>,
                                  freshId: Id, k: nat)
    requires RegisterUser(db, Some(username), email, fullName, password, files, upload, freshId).res.Ok?
    requires k < |db.users| && db.users[k].username == ToLower(username)
    ensures var after := RegisterUser(db, Some(username), email, fullName, password, files, upload, freshId).db;
            && username != ToLower(username)
            && after.users[k].username == after.users[|db.users|].username
  {
    assert !Clashes(db.users[k], Some(username), email);
  }
}

=== FILE: videos.dfy ===
/** The video handlers (`src/controllers/video.controller.js`): the two
    listings, publishing, viewing, editing, deleting, the publish switch,
    and the trending list. */
module Videos {
  import opened Outcomes
  import opened Records
  import opened JsText
  import Seqs
  import Sorting

  // ----- Listings -----

  /** `sortType === 'asc' ? 1 : -1`, with `sortType` defaulting to
      "desc": only the exact text "asc" sorts ascending. */
  function SortDirection(sortType: Option<string>): (d: Sorting.Direction)
    ensures d == Sorting.Asc <==> sortType == Some("asc")
  {
    if sortType == Some("asc") then Sorting.Asc else Sorting.Desc
  }

  /** The sort field, `createdAt` unless the request names one. */
  function SortField(sortBy: Option<string>): (f: string)
    ensures sortBy.None? ==> f == "createdAt"
    ensures sortBy.Some? ==> f == sortBy.value
  {
    if sortBy.Some? then sortBy.value else "createdAt"
  }

  /** The value a video holds in a named field, as `$sort` sees it; a
      field videos do not have is missing from every one of them. */
  function FieldValue(v: Video, field: string): Sorting.SortValue {
    if field == "createdAt" then Sorting.Num(v.createdAt)
    else if field == "updatedAt" then Sorting.Num(v.updatedAt)
    else if field == "views" then Sorting.Num(v.views)
    else if field == "duration" then Sorting.Num(v.duration)
    else if field == "title" then Sorting.Text(v.title)
    else if field == "description" then Sorting.Text(v.description)
    else if field == "videoFile" then Sorting.Text(v.videoFile)
    else if field == "thumbnail" then Sorting.Text(v.thumbnail)
    else if field == "owner" then Sorting.Text(v.owner)
    else if field == "_id" then Sorting.Text(v.id)
    else if field == "isPublished" then Sorting.Flag(v.isPublished)
    else Sorting.Missing
  }

  function ByField(field: string): Video -> Sorting.SortValue {
    (v: Video) => FieldValue(v, field)
  }

  /** The `$match` of a listing: when `query` is truthy, the title or the
      description matches it (`matches(pattern, text)` stands for the
      case-insensitive regular-expression test); when `owner` is given,
      the video is that user's. */
  predicate Selected(v: Video, query: Option<string>, owner: Option<Id>, matches: (string, string) -> bool) {
    && (Falsy(query) || matches(query.value, v.title) || matches(query.value, v.description))
    && (owner.None? || v.owner == owner.value)
  }

  function Selects(query: Option<string>, owner: Option<Id>, matches: (string, string) -> bool): Video -> bool {
    (v: Video) => Selected(v, query, owner, matches)
  }

  /** The listing pipeline `$match`, `$sort`, `$lookup` + `$unwind`: the
      selected videos whose owner exists, ordered on the sort field in the
      requested direction, each with its owner's profile. */
  function ListVideos(db: Db, query: Option<string>, owner: Option<Id>, matches: (string, string) -> bool,
                      sortBy: Option<string>, sortType: Option<string>): (rows: seq<Joined<Video>>)
    ensures Sorting.Sorted(Items(rows), ByField(SortField(sortBy)), SortDirection(sortType))
    ensures multiset(Items(rows))
            == multiset(Seqs.Filter(Seqs.Filter(db.videos, Selects(query, owner, matches)), Resolves(db.users, VideoOwner)))
    ensures forall i :: 0 <= i < |rows| ==> Selected(rows[i].item, query, owner, matches)
    ensures forall i :: 0 <= i < |rows| ==> && FindUser(db.users, rows[i].item.owner).Some?
                                            && rows[i].owner == ProfileOf(FindUser(db.users, rows[i].item.owner).value)
  {
    var selected := Seqs.Filter(db.videos, Selects(query, owner, matches));
    var sorted := Sorting.SortBy(selected, ByField(SortField(sortBy)), SortDirection(sortType));
    JoinSortedSelection(db.users, selected, sorted, ByField(SortField(sortBy)), SortDirection(sortType), Selects(query, owner, matches));
    JoinUsers(sorted, VideoOwner, db.users)
  }

  /** Joining a sorted arrangement of selected videos gives sorted rows of
      selected videos, holding the same videos as joining the selection
      in store order would. */
  lemma JoinSortedSelection(users: seq<User>, selected: seq<Video>, sorted: seq<Video>,
                            key: Video -> Sorting.SortValue, dir: Sorting.Direction, p: Video -> bool)
    requires forall i :: 0 <= i < |selected| ==> p(selected[i])
    requires Sorting.Sorted(sorted, key, dir) && multiset(sorted) == multiset(selected)
    ensures Sorting.Sorted(Items(JoinUsers(sorted, VideoOwner, users)), key, dir)
    ensures multiset(Items(JoinUsers(sorted, VideoOwner, users)))
            == multiset(Seqs.Filter(selected, Resolves(users, VideoOwner)))
    ensures forall i :: 0 <= i < |JoinUsers(sorted, VideoOwner, users)| ==> p(JoinUsers(sorted, VideoOwner, users)[i].item)
    ensures forall i :: 0 <= i < |JoinUsers(sorted, VideoOwner, users)| ==>
              var row := JoinUsers(sorted, VideoOwner, users)[i];
              FindUser(users, row.item.owner).Some? && row.owner == ProfileOf(FindUser(users, row.item.owner).value)
  {
    var rows := JoinUsers(sorted, VideoOwner, users);
    Sorting.SortedFilter(sorted, Resolves(users, VideoOwner), key, dir);
    Seqs.FilterOfPermutation(sorted, selected, Resolves(users, VideoOwner));
    PermutationKeeps(selected, sorted, p);
    JoinKeeps(sorted, VideoOwner, users, p);
    assert forall i :: 0 <= i < |rows| ==> VideoOwner(rows[i].item) == rows[i].item.owner;
  }

  /** A rearrangement keeps every element, so a property of every element
      of one holds of every element of the other. */
  lemma PermutationKeeps(s: seq<Video>, r: seq<Video>, p: Video -> bool)
    requires forall i :: 0 <= i < |s| ==> p(s[i])
    requires multiset(r) == multiset(s)
    ensures forall i :: 0 <= i < |r| ==> p(r[i])
  {
    forall i | 0 <= i < |r|
      ensures p(r[i])
    {
      assert r[i] in multiset(r);
      var k :| 0 <= k < |s| && s[k] == r[i];
    }
  }

  /** A field path `$sort` accepts: not empty, no empty component (no
      leading, trailing or doubled dot) and no component starting with
      `$`. The key `__proto__` is refused too: `sort["__proto__"] = …` on a
      plain object sets no key, so the stage is an empty `$sort`. Any other
      sort key makes the aggregation fail. */
  predicate SortKeyAccepted(field: string) {
    && field != "__proto__"
    && |field| > 0 && field[0] != '.' && field[0] != '$' && field[|field| - 1] != '.'
    && forall i :: 0 <= i < |field| - 1 && field[i] == '.' ==> field[i + 1] != '.' && field[i + 1] != '$'
  }

  /** The listing aggregation runs: the sort key is a field path `$sort`
      accepts and, when `query` is truthy, it is a regular expression the
      server compiles (`compiles` stands for the server's pattern
      parser). */
  predicate ListingRuns(query: Option<string>, sortBy: Option<string>, compiles: string -> bool) {
    SortKeyAccepted(SortField(sortBy)) && (Falsy(query) || compiles(query.value))
  }

  /** `getAllVideos`. A truthy `userId` that is not an ObjectId makes the
      `$match` construction throw (500); an aggregation the server rejects
      (a bad sort key or pattern) is caught and answered with a 500;
      otherwise every selected video whose owner exists, sorted as
      requested, joined to its owner. */
  function GetAllVideos(db: Db, query: Option<string>, sortBy: Option<string>, sortType: Option<string>,
                        userId: Option<string>, matches: (string, string) -> bool, compiles: string -> bool)
    : (r: Res<seq<Joined<Video>>>)
    ensures r.Err? <==> (!Falsy(userId) && !IsValidObjectId(userId.value)) || !ListingRuns(query, sortBy, compiles)
    ensures r.Err? ==> r.status == 500
    ensures r.Ok? ==> r.status == 200
                      && r.value == ListVideos(db, query, if Falsy(userId) then None else Some(userId.value), matches, sortBy, sortType)
  {
    if !Falsy(userId) && !IsValidObjectId(userId.value) then Err(500)
    else if !ListingRuns(query, sortBy, compiles) then Err(500)
    else Ok(200, ListVideos(db, query, if Falsy(userId) then None else Some(userId.value), matches, sortBy, sortType))
  }

  /** `getUserVideos` for the signed-in `user`: a malformed caller id is a
      400; an aggregation the server rejects is caught and answered with a
      500; otherwise the listing restricted to the caller's own videos. */
  function GetUserVideos(db: Db, user: Id, query: Option<string>, sortBy: Option<string>, sortType: Option<string>,
                         matches: (string, string) -> bool, compiles: string -> bool): (r: Res<seq<Joined<Video>>>)
    ensures !IsValidObjectId(user) ==> r == Err(400)
    ensures IsValidObjectId(user) && !ListingRuns(query, sortBy, compiles) ==> r == Err(500)
    ensures r.Ok? <==> IsValidObjectId(user) && ListingRuns(query, sortBy, compiles)
    ensures r.Ok? ==> r.status == 200 && forall i :: 0 <= i < |r.value| ==> r.value[i].item.owner == user
    ensures r.Ok? ==> r.value == ListVideos(db, query, Some(user), matches, sortBy, sortType)
  {
    if !IsValidObjectId(user) then Err(400)
    else if !ListingRuns(query, sortBy, compiles) then Err(500)
    else Ok(200, ListVideos(db, query, Some(user), matches, sortBy, sortType))
  }

  /** The caller's own listing is the general listing filtered on the
      caller as owner. */
  lemma UserVideosAreOwnerListing(db: Db, user: Id, query: Option<string>, sortBy: Option<string>, sortType: Option<string>,
                                  matches: (string, string) -> bool, compiles: string -> bool)
    requires IsValidObjectId(user)
    ensures GetUserVideos(db, user, query, sortBy, sortType, matches, compiles)
            == GetAllVideos(db, query, sortBy, sortType, Some(user), matches, compiles)
  {
  }

  /** An empty `sortBy` (`{"": -1}`), a `$`-prefixed one and `__proto__`
      (an empty `$sort`) make every listing a 500, whatever else the
      request holds; the default sort key is accepted. */
  lemma BadSortKeyFailsListing(db: Db, query: Option<string>, sortType: Option<string>, userId: Option<string>,
                               matches: (string, string) -> bool, compiles: string -> bool)
    ensures GetAllVideos(db, query, Some(""), sortType, userId, matches, compiles) == Err(500)
    ensures GetAllVideos(db, query, Some("$views"), sortType, userId, matches, compiles) == Err(500)
    ensures GetAllVideos(db, query, Some("__proto__"), sortType, userId, matches, compiles) == Err(500)
    ensures SortKeyAccepted(SortField(None))
  {
    assert "$views"[0] == '$';
  }

  // ----- Single video -----

  /** Where the upload middleware left the two files: no multipart body at
      all, or the two fields, each with a path when a file was sent. */
  datatype VideoFiles = NoFiles | Files(videoFile: Option<string>, thumbnail: Option<string>)

  /** `publishAVideo` by the signed-in `user`; `upload` stands for the
      media host and answers `None` when an upload fails. In order: a falsy
      title or description is a 400; a multipart body lacking one of the
      two fields makes `videoFile[0]` or `thumbnail[0]` throw (500); a
      falsy path is a 400; a failed video or thumbnail upload is a 400.
      Otherwise the video is created unwatched, published and owned by the
      caller, and returned with 201. */
  function PublishAVideo(db: Db, user: Id, title: Option<string>, description: Option<string>, files: VideoFiles,
                         upload: string -> Option<Upload>, freshId: Id, now: int): (out: Reply<Video>)
    ensures Falsy(title) || Falsy(description) ==> out == Reply(Err(400), db)
    ensures !Falsy(title) && !Falsy(description) ==>
              match files
              case NoFiles => out == Reply(Err(400), db)
              case Files(vf, th) =>
                && (vf.None? || th.None? ==> out == Reply(Err(500), db))
                && (vf.Some? && th.Some? && (vf.value == "" || th.value == "") ==> out == Reply(Err(400), db))
                && (vf.Some? && th.Some? && (upload(vf.value).None? || upload(th.value).None?) ==> out == Reply(Err(400), db))
    ensures out.res.Ok? <==> (&& !Falsy(title) && !Falsy(description) && files.Files?
                             && !Falsy(files.videoFile) && !Falsy(files.thumbnail)
                             && upload(files.videoFile.value).Some? && upload(files.thumbnail.value).Some?)
    ensures out.res.Err? ==> out.db == db
    ensures out.res.Ok? ==>
              && out.res.status == 201
              && var v := out.res.value;
                 && v.id == freshId && v.title == title.value && v.description == description.value
                 && v.views == 0 && v.isPublished && v.owner == user
                 && upload(files.videoFile.value) == Some(Upload(v.videoFile, v.duration))
                 && upload(files.thumbnail.value).Some? && upload(files.thumbnail.value).value.url == v.thumbnail
                 && v.createdAt == now && v.updatedAt == now
                 && out.db == db.(videos := db.videos + [v])
  {
    if Falsy(title) || Falsy(description) then Reply(Err(400), db)
    else match files
      case NoFiles => Reply(Err(400), db)
      case Files(vf, th) =>
        if vf.None? || th.None? then Reply(Err(500), db)
        else if Falsy(vf) || Falsy(th) then Reply(Err(400), db)
        else match (upload(vf.value), upload(th.value))
          case (None, _) => Reply(Err(400), db)
          case (_, None) => Reply(Err(400), db)
          case (Some(video), Some(thumb)) =>
            var v := Video(freshId, video.url, thumb.url, title.value, description.value,
                           video.duration, 0, true, user, now, now);
            Reply(Ok(201, v), db.(videos := db.videos + [v]))
  }

  /** `getVideoById` at time `now`. A malformed id is a 400 that touches
      nothing. Otherwise the video with that id, if any, gains exactly one
      view first, and the update stamps its `updatedAt` with `now`; then
      the reply is that video with its owner's profile, or a 404 when
      there is no such video or its owner does not exist. The view is
      counted even when the reply is a 404. */
  function GetVideoById(db: Db, videoId: Id, now: int): (out: Reply<Joined<Video>>)
    ensures !IsValidObjectId(videoId) ==> out == Reply(Err(400), db)
    ensures IsValidObjectId(videoId) ==>
              match VideoIndex(db.videos, videoId)
              case None => out == Reply(Err(404), db)
              case Some(i) =>
                && out.db == db.(videos := db.videos[i := db.videos[i].(views := db.videos[i].views + 1, updatedAt := now)])
                && (out.res.Ok? <==> FindUser(db.users, db.videos[i].owner).Some?)
                && (out.res.Err? ==> out.res.status == 404)
                && (out.res.Ok? ==> && out.res.status == 200
                                    && out.res.value.item == out.db.videos[i]
                                    && out.res.value.owner == ProfileOf(FindUser(db.users, db.videos[i].owner).value))
  {
    if !IsValidObjectId(videoId) then Reply(Err(400), db)
    else match VideoIndex(db.videos, videoId)
      case None => Reply(Err(404), db)
      case Some(i) =>
        var viewed := db.videos[i].(views := db.videos[i].views + 1, updatedAt := now);
        var db' := db.(videos := db.videos[i := viewed]);
        match FindUser(db.users, viewed.owner)
        case None => Reply(Err(404), db')
        case Some(u) => Reply(Ok(200, Joined(viewed, ProfileOf(u))), db')
  }

  /** Sum of the views of some videos. */
  function TotalViews(videos: seq<Video>): int {
    if |videos| == 0 then 0 else videos[0].views + TotalViews(videos[1..])
  }

  /** Changing one video's views by `delta` changes the total by
      `delta`. */
  lemma {:induction false} TotalViewsUpdate(videos: seq<Video>, i: nat, v: Video)
    requires i < |videos|
    ensures TotalViews(videos[i := v]) == TotalViews(videos) - videos[i].views + v.views
  {
    if i > 0 {
      assert videos[i := v][1..] == videos[1..][i - 1 := v];
      TotalViewsUpdate(videos[1..], i - 1, v);
    }
  }

  /** Viewing an existing video raises the store's total views by exactly
      one; viewing an unknown or malformed id changes nothing. */
  lemma ViewAddsOneView(db: Db, videoId: Id, now: int)
    ensures TotalViews(GetVideoById(db, videoId, now).db.videos)
            == TotalViews(db.videos) + (if IsValidObjectId(videoId) && VideoIndex(db.videos, videoId).Some? then 1 else 0)
  {
    if IsValidObjectId(videoId) && VideoIndex(db.videos, videoId).Some? {
      var i := VideoIndex(db.videos, videoId).value;
      TotalViewsUpdate(db.videos, i, db.videos[i].(views := db.videos[i].views + 1, updatedAt := now));
    }
  }

  /** `updateVideo` at time `now`. In order: a falsy title or
      description, a malformed id, a falsy thumbnail path, a failed upload
      and an unknown id are each a 400 that changes nothing. Otherwise the
      title, the description and the thumbnail of that video are set, the
      update stamps `updatedAt` with `now`, and the video is returned. */
  function UpdateVideo(db: Db, videoId: Id, title: Option<string>, description: Option<string>,
                       thumbnailPath: Option<string>, upload: string -> Option<Upload>, now: int): (out: Reply<Video>)
    ensures out.res.Err? ==> out == Reply(Err(400), db)
    ensures out.res.Ok? <==> (&& !Falsy(title) && !Falsy(description) && IsValidObjectId(videoId)
                             && !Falsy(thumbnailPath) && upload(thumbnailPath.value).Some?
                             && VideoIndex(db.videos, videoId).Some?)
    ensures out.res.Ok? ==>
              var i := VideoIndex(db.videos, videoId).value;
              var v := out.res.value;
              && out.res.status == 200
              && v == db.videos[i].(title := title.value, description := description.value,
                                    thumbnail := upload(thumbnailPath.value).value.url, updatedAt := now)
              && out.db == db.(videos := db.videos[i := v])
  {
    if Falsy(title) || Falsy(description) then Reply(Err(400), db)
    else if !IsValidObjectId(videoId) then Reply(Err(400), db)
    else if Falsy(thumbnailPath) then Reply(Err(400), db)
    else match upload(thumbnailPath.value)
      case None => Reply(Err(400), db)
      case Some(thumb) =>
        match VideoIndex(db.videos, videoId)
        case None => Reply(Err(400), db)
        case Some(i) =>
          var v := db.videos[i].(title := title.value, description := description.value, thumbnail := thumb.url,
                                 updatedAt := now);
          Reply(Ok(200, v), db.(videos := db.videos[i := v]))
  }

  /** An update keeps everything of the video but the three edited fields
      and the update time: its id, file, duration, views, publish state,
      owner and creation time. */
  lemma UpdateVideoKeepsRest(db: Db, videoId: Id, title: Option<string>, description: Option<string>,
                             thumbnailPath: Option<string>, upload: string -> Option<Upload>, now: int)
    requires UpdateVideo(db, videoId, title, description, thumbnailPath, upload, now).res.Ok?
    ensures var i := VideoIndex(db.videos, videoId).value;
            var old_ := db.videos[i];
            var v := UpdateVideo(db, videoId, title, description, thumbnailPath, upload, now).res.value;
            && v.id == old_.id == videoId && v.videoFile == old_.videoFile && v.duration == old_.duration
            && v.views == old_.views && v.isPublished == old_.isPublished && v.owner == old_.owner
            && v.createdAt == old_.createdAt && v.updatedAt == now
            && |UpdateVideo(db, videoId, title, description, thumbnailPath, upload, now).db.videos| == |db.videos|
  {
  }

  /** `deleteVideo`. A malformed or unknown id is a 400 that changes
      nothing; otherwise the video with that id is removed and returned. */
  function DeleteVideo(db: Db, videoId: Id): (out: Reply<Video>)
    ensures out.res.Err? ==> out == Reply(Err(400), db)
    ensures out.res.Ok? <==> IsValidObjectId(videoId) && VideoIndex(db.videos, videoId).Some?
    ensures out.res.Ok? ==>
              var i := VideoIndex(db.videos, videoId).value;
              && out.res.status == 200 && out.res.value == db.videos[i] && out.res.value.id == videoId
              && out.db == db.(videos := Seqs.RemoveAt(db.videos, i))
  {
    if !IsValidObjectId(videoId) then Reply(Err(400), db)
    else match VideoIndex(db.videos, videoId)
      case None => Reply(Err(400), db)
      case Some(i) => Reply(Ok(200, db.videos[i]), db.(videos := Seqs.RemoveAt(db.videos, i)))
  }

  /** No video id occurs twice in the store. */
  ghost predicate UniqueIds(videos: seq<Video>) {
    forall i, j :: 0 <= i < j < |videos| ==> videos[i].id != videos[j].id
  }

  /** With unique ids, a deleted video is gone: deleting it again is a 400
      and viewing it a 404. */
  lemma DeleteVideoRemovesIt(db: Db, videoId: Id, now: int)
    requires UniqueIds(db.videos)
    requires DeleteVideo(db, videoId).res.Ok?
    ensures var after := DeleteVideo(db, videoId).db;
            && VideoIndex(after.videos, videoId).None?
            && DeleteVideo(after, videoId) == Reply(Err(400), after)
            && GetVideoById(after, videoId, now) == Reply(Err(404), after)
  {
    var i := VideoIndex(db.videos, videoId).value;
    var after := DeleteVideo(db, videoId).db.videos;
    forall j | 0 <= j < |after|
      ensures after[j].id != videoId
    {
      if j < i {
        assert after[j] == db.videos[j];
      } else {
        assert after[j] == db.videos[j + 1];
      }
    }
  }

  /** `togglePublishStatus` at time `now`. A malformed or unknown id is a
      400 that changes nothing; otherwise the video's publish flag is
      negated, `save()` stamps its `updatedAt` with `now`, and nothing
      else changes. */
  function TogglePublishStatus(db: Db, videoId: Id, now: int): (out: Reply<Video>)
    ensures out.res.Err? ==> out == Reply(Err(400), db)
    ensures out.res.Ok? <==> IsValidObjectId(videoId) && VideoIndex(db.videos, videoId).Some?
    ensures out.res.Ok? ==>
              var i := VideoIndex(db.videos, videoId).value;
              && out.res.status == 200
              && out.res.value.isPublished == !db.videos[i].isPublished
              && out.res.value.updatedAt == now
              && out.res.value == db.videos[i].(isPublished := out.res.value.isPublished, updatedAt := now)
              && out.db == db.(videos := db.videos[i := out.res.value])
  {
    if !IsValidObjectId(videoId) then Reply(Err(400), db)
    else match VideoIndex(db.videos, videoId)
      case None => Reply(Err(400), db)
      case Some(i) =>
        var v := db.videos[i].(isPublished := !db.videos[i].isPublished, updatedAt := now);
        Reply(Ok(200, v), db.(videos := db.videos[i := v]))
  }

  /** Switching a video's publish state twice restores the store, except
      that the video keeps the second switch's time as its `updatedAt`. */
  lemma TogglePublishTwice(db: Db, videoId: Id, now: int, later: int)
    ensures var twice := TogglePublishStatus(TogglePublishStatus(db, videoId, now).db, videoId, later).db;
            if IsValidObjectId(videoId) && VideoIndex(db.videos, videoId).Some?
            then var i := VideoIndex(db.videos, videoId).value;
                 twice == db.(videos := db.videos[i := db.videos[i].(updatedAt := later)])
            else twice == db
  {
    var once := TogglePublishStatus(db, videoId, now);
    if once.res.Ok? {
      var i := VideoIndex(db.videos, videoId).value;
      VideoIndexAfterReplace(db.videos, videoId, once.res.value);
      assert once.db.videos[i := db.videos[i].(updatedAt := later)] == db.videos[i := db.videos[i].(updatedAt := later)];
    }
  }

  /** Replacing the video found for an id by one with the same id keeps it
      the one found. */
  lemma VideoIndexAfterReplace(videos: seq<Video>, id: Id, v: Video)
    requires VideoIndex(videos, id).Some? && v.id == id
    ensures var i := VideoIndex(videos, id).value;
            VideoIndex(videos[i := v], id) == Some(i)
  {
    var i := VideoIndex(videos, id).value;
    var after := videos[i := v];
    forall j | 0 <= j < i
      ensures !HasVideoId(id)(after[j])
    {
      assert after[j] == videos[j];
    }
    Seqs.FirstIndexAt(after, HasVideoId(id), i);
  }

  // ----- Trending -----

  /** The trending score `views + createdAt * 0.001` (with `createdAt` in
      milliseconds), scaled by 1000 so that it is an exact integer. */
  function Score(v: Video): int {
    v.views * 1000 + v.createdAt
  }

  function ScoreKey(): Video -> Sorting.SortValue {
    (v: Video) => Sorting.Num(Score(v))
  }

  function Published(): Video -> bool {
    (v: Video) => v.isPublished
  }

  /** A trending row: the video and, as the `$lookup` has no `$unwind`,
      its owner's profile when the owner exists. */
  datatype TrendingRow = TrendingRow(video: Video, owner: Option<Profile>)

  function OwnerProfile(users: seq<User>, owner: Id): (p: Option<Profile>)
    ensures p.Some? <==> FindUser(users, owner).Some?
    ensures p.Some? ==> p.value == ProfileOf(FindUser(users, owner).value)
  {
    match FindUser(users, owner)
    case None => None
    case Some(u) => Some(ProfileOf(u))
  }

  /** The `$lookup` without `$unwind`: one row per video, in order. */
  function LookupOwners(videos: seq<Video>, users: seq<User>): (rows: seq<TrendingRow>)
    ensures |rows| == |videos|
    ensures forall i :: 0 <= i < |rows| ==> rows[i] == TrendingRow(videos[i], OwnerProfile(users, videos[i].owner))
  {
    if |videos| == 0 then []
    else [TrendingRow(videos[0], OwnerProfile(users, videos[0].owner))] + LookupOwners(videos[1..], users)
  }

  function RowVideos(rows: seq<TrendingRow>): (vs: seq<Video>)
    ensures |vs| == |rows|
    ensures forall i :: 0 <= i < |rows| ==> vs[i] == rows[i].video
  {
    if |rows| == 0 then [] else [rows[0].video] + RowVideos(rows[1..])
  }

  /** `getTrendingVideos`. A `limit` (10 when absent) that is not a number
      or is below 1 makes the `$limit` stage fail (500). Otherwise the
      published videos, highest score first, at most `limit` of them, each
      with its owner's profile when the owner exists. */
  function GetTrendingVideos(db: Db, limit: Option<string>): (r: Res<seq<TrendingRow>>)
    ensures r.Err? <==> ParseQueryInt(limit, 10).None? || ParseQueryInt(limit, 10).value < 1
    ensures r.Err? ==> r.status == 500
    ensures r.Ok? ==>
              && r.status == 200
              && |r.value| == Seqs.Min(ParseQueryInt(limit, 10).value, Seqs.Count(db.videos, Published()))
              && Sorting.Sorted(RowVideos(r.value), ScoreKey(), Sorting.Desc)
              && forall i :: 0 <= i < |r.value| ==>
                   r.value[i].video.isPublished && r.value[i].owner == OwnerProfile(db.users, r.value[i].video.owner)
  {
    match ParseQueryInt(limit, 10)
    case None => Err(500)
    case Some(n) =>
      if n < 1 then Err(500)
      else
        var published := Seqs.Filter(db.videos, Published());
        var ranked := Sorting.SortBy(published, ScoreKey(), Sorting.Desc);
        var top := Seqs.Take(ranked, n);
        PermutationKeeps(published, ranked, Published());
        TakeSorted(ranked, n);
        var rows := LookupOwners(top, db.users);
        assert RowVideos(rows) == top;
        Ok(200, rows)
  }

  lemma TakeSorted(s: seq<Video>, n: nat)
    requires Sorting.Sorted(s, ScoreKey(), Sorting.Desc)
    ensures Sorting.Sorted(Seqs.Take(s, n), ScoreKey(), Sorting.Desc)
  {
  }

  /** The trending list is the top of the ranking: the published videos
      split into the returned ones and the rest, and no video left out
      scores above any returned one. */
  lemma TrendingAreTopScores(db: Db, limit: Option<string>)
    requires GetTrendingVideos(db, limit).Ok?
    ensures exists rest: seq<Video> ::
              && multiset(RowVideos(GetTrendingVideos(db, limit).value)) + multiset(rest)
                 == multiset(Seqs.Filter(db.videos, Published()))
              && forall i, j :: 0 <= i < |GetTrendingVideos(db, limit).value| && 0 <= j < |rest|
                                ==> Score(rest[j]) <= Score(GetTrendingVideos(db, limit).value[i].video)
  {
    var n := ParseQueryInt(limit, 10).value;
    var published := Seqs.Filter(db.videos, Published());
    var ranked := Sorting.SortBy(published, ScoreKey(), Sorting.Desc);
    var top := Seqs.Take(ranked, n);
    var rows := GetTrendingVideos(db, limit).value;
    assert RowVideos(rows) == top by {
      assert rows == LookupOwners(top, db.users);
      assert RowVideos(LookupOwners(top, db.users)) == top;
    }
    var rest := RankingSplit(ranked, n);
    assert multiset(RowVideos(rows)) + multiset(rest) == multiset(published);
    forall i, j | 0 <= i < |rows| && 0 <= j < |rest|
      ensures Score(rest[j]) <= Score(rows[i].video)
    {
      assert rows[i].video == top[i];
    }
  }

  /** Cutting a ranking after `n` leaves a tail that scores no higher
      than any of the head. */
  lemma RankingSplit(ranked: seq<Video>, n: nat) returns (rest: seq<Video>)
    requires Sorting.Sorted(ranked, ScoreKey(), Sorting.Desc)
    ensures multiset(Seqs.Take(ranked, n)) + multiset(rest) == multiset(ranked)
    ensures forall i, j :: 0 <= i < |Seqs.Take(ranked, n)| && 0 <= j < |rest| ==> Score(rest[j]) <= Score(Seqs.Take(ranked, n)[i])
  {
    var top := Seqs.Take(ranked, n);
    rest := if n >= |ranked| then [] else ranked[n..];
    assert ranked == top + rest;
    forall i, j | 0 <= i < |top| && 0 <= j < |rest|
      ensures Score(rest[j]) <= Score(top[i])
    {
      assert top[i] == ranked[i] && rest[j] == ranked[n + j];
      assert Sorting.InOrder(ScoreKey()(ranked[i]), ScoreKey()(ranked[n + j]), Sorting.Desc);
    }
  }
}
